=== FILE: README.md ===
# SweetSpot core, modelled in Dafny

SweetSpot is a single-page app: the user types or photographs a sweet, a
generative-text service returns a recipe scaled to the user's proficiency and
serving count, a generative-image service paints a hero photo and one
illustration per step, and an authentication and storage backend keeps the
account, saved recipes and a photo diary.

This project models the deterministic rules inside that orchestration. Every
remote reply (sign-in result, recipe text, image reply, insert acknowledgement)
is an input value, and each modelled handler of `App.tsx` is a pure function
from the state and that reply to the next state:

- `Auth`: the authentication gate. It covers the local credential checks, the
  sign-in, sign-up and resend replies mapped to banners, the resend button and
  the cooldown, and the one-second cooldown tick that gates both buttons.
- `Illustrations`: the sparse step-number → `{url, loading, error}` map. It
  holds the dispatch guard of the recipe effect and the dispatch, success and
  failure updates, each touching only its own key.
- `SavedRecipes`: the save toggle. Membership is keyed by `itemName`, and the
  list changes only after the backend acknowledges the write.
- `Analysis`: how `startAnalysis` derives its request. It covers the no-op on
  empty input, proficiency chosen by keywords, cup size only for drinks, and
  the serving stepper clamped to 1..10.
- `Profile`: the per-category proficiency change, the default diary caption,
  and the prepending of a confirmed diary row.
- `Gemini`: the prompt context sentence and the text-only vs image+text
  request shape. It also covers the empty-reply failure, the first-inline-image
  pick turned into a `data:image/png;base64,` URL, and the header stripping
  of `fileToBase64`.
- `App`: the application state as one record. It wires the above into
  `startAnalysis`, the recipe effect (hero short-circuit and step dispatch),
  reopening a recipe, picking a photo, and logout.
- `Text` and `Wrappers`: the JavaScript built-ins the core relies on, and the
  option types. `Text` gives ASCII `toLowerCase` (`Text.Lower`), `includes`
  (the predicate `Text.Contains`, characterised by `Text.ContainsIffOccurs`),
  `indexOf` (`Text.IndexOf`), `split(',')[1]` (`Text.SecondField`) and
  number-to-decimal rendering (`Text.IntToDecimal`). `Wrappers` gives `Option`
  and `Result`.

Behaviour worth noting, modelled as the code has it:

- Logout resets only the session, the tab and the active recipe. The profile,
  saved list and illustration map stay (`App.Logout`).
- The cup size returns to `12oz` when the Dessert tab is chosen, not when a
  drink tab is left (`Analysis.SelectCategory`).
- Analysis replies carry no request tag. A late reply is applied like any other.
- Reopening a saved or history recipe does not clear the illustration map. A
  step number that already shows a picture from an earlier recipe is not
  fetched again (`App.ReopenedRecipeKeepsPictures`).
- The recipe effect checks every step against the map as it stood when the
  effect ran. Two steps with the same number would both be dispatched, so the
  one-fetch-per-step property assumes distinct step numbers
  (`Illustrations.PlanHasOneFetchPerStep`).
- Only the Analyze button is disabled while an analysis runs. The suggestion
  buttons and the preview card (App.tsx:666, which is `App.BeginAnalysis`
  without a suggestion) have no such guard in their handlers, so a suggestion
  handler run meanwhile starts a second analysis
  (`App.SuggestionDuringAnalysisStartsAnother`). On screen the analysis
  overlay (App.tsx:984-985) covers both, so only keyboard activation of a
  suggestion button that still has focus reaches this; the preview card, a
  `div` without a tab stop, cannot be reached at all.
- The spinner stops in `finally` (App.tsx:400-401), after the recipe is set
  and, when signed in, after the awaited history write. The reply and the
  spinner's end are therefore two events (`App.RecipeArrived`,
  `App.AnalysisDone`), and the recipe effect runs while the spinner still
  shows; the effect does not read the spinner, so either order gives the same
  result (`App.EffectIgnoresSpinner`).
- A step reply of the previous recipe that arrives during a new analysis
  writes into the cleared map, so that step of the new recipe keeps the old
  picture and is not fetched (`App.LateStepReplyHidesFreshStep`).
- Only sign-up and resend react to HTTP 429. A sign-in error with that status
  is shown verbatim.

## Model

| member | source | states |
|---|---|---|
| Auth.InitialGate | App.tsx:92-98 | the gate starts in sign-in mode with an empty form, no banners, no spinner and no cooldown |
| Auth.Validate | App.tsx:238-246 | a missing email, password, or (when signing up) username gives the fill-in error first; only a filled form with a password under 6 characters gives the length error; otherwise there is no error |
| Auth.BeginAuth | App.tsx:235-251 | a failed check sets only the error, leaves the spinner alone and calls nothing; a passed check clears both banners and the resend button, starts the spinner and makes exactly one call matching the mode |
| Auth.CompleteSignIn | App.tsx:253-264 | a rejection whose lower-cased message contains "confirmed" shows the unconfirmed message and the resend button; any other rejection is shown verbatim; the spinner stops and the cooldown is untouched |
| Auth.CompleteSignUp | App.tsx:265-294 | status 429 sets the rate-limit error and a 60-second cooldown; other errors are shown verbatim; a user without a session shows the check-inbox message, the resend button and a 30-second cooldown; a user with a session only shows the welcome message; an exception shows the generic message |
| Auth.BeginResend | App.tsx:208-216 | with an empty email nothing changes and nothing is called; otherwise the spinner starts, the error clears and one resend call for that email is made |
| Auth.CompleteResend | App.tsx:217-232 | a 429 sets the wait message and a 60-second cooldown; success sets the resent message and a 60-second cooldown; another error sets only its message; the spinner always stops |
| Auth.ToggleMode | App.tsx:584-589 | the mode link flips the mode and clears both banners and the resend button |
| Auth.Tick | App.tsx:121-129 | a tick lowers a positive cooldown by exactly one, does nothing at zero, and changes nothing else |
| Auth.TicksCountDown | App.tsx:121-129 | after n ticks the cooldown is its old value minus n, stopping at zero, with the rest of the gate unchanged |
| Auth.PressSubmit | App.tsx:564-565 | the submit button does nothing while loading or while the cooldown is positive |
| Auth.PressResend | App.tsx:572-575 | the resend button does nothing unless it is shown, not loading and out of cooldown |
| Auth.SignInUnconfirmedOffersResend | App.tsx:235-264 | a valid sign-in rejected as unconfirmed offers the resend button, and pressing it resends the link to the typed email |
| Auth.RateLimitHoldsForCooldown | App.tsx:274-281 | after a rate-limited sign-up neither button makes a call during the next 59 ticks, and submit is enabled again after 60 |
| Auth.ResendHoldsForCooldown | App.tsx:224-227 | after a resent link neither button makes a call during the next 59 ticks, and submit is enabled again after 60 |
| Auth.SignUpPasswordCheck | App.tsx:243-246 | a filled sign-up with a 5-character password makes no call; with 6 or more characters it makes exactly the sign-up call |
| Illustrations.Dispatch | App.tsx:331-334 | starting a fetch sets loading and clears the error on that step only, keeping any earlier url |
| Illustrations.Succeed | App.tsx:337-340 | a returned image sets {url, not loading, no error} on that step only |
| Illustrations.Fail | App.tsx:342-345 | a failure stops loading, sets the "Retrying..." error and keeps any earlier url, on that step only |
| Illustrations.Complete | App.tsx:335-346 | a success shows exactly the returned url, not loading and without error; a failure stops loading, keeps the old url and says "Retrying..."; no other key changes |
| Illustrations.DispatchGuardsReentry | App.tsx:310 | a step whose fetch has started is not dispatched again, and a finished fetch is no longer in flight |
| Illustrations.FetchPlan | App.tsx:309-313 | a step is dispatched exactly when its entry has no picture and is not loading |
| Illustrations.DispatchAll | App.tsx:309-313 | after the dispatches every planned step is loading with no error and its old url, and every other entry is unchanged |
| Illustrations.PlanHasOneFetchPerStep | App.tsx:309-313 | with distinct step numbers, at most one fetch is dispatched per step number |
| Illustrations.NoDuplicateDispatch | App.tsx:310-311 | running the effect again right after its dispatches starts nothing |
| SavedRecipes.RemoveByName | App.tsx:413 | the delete keeps every copy of each recipe with a different name and no copy of one with the name |
| SavedRecipes.RemoveByNameConcat | App.tsx:413 | filtering a concatenation filters each half and keeps their order, so the filter preserves order |
| SavedRecipes.ToggleCall | App.tsx:406-415 | no call without a recipe or a user; a delete by name when the name is saved; an insert of the recipe otherwise |
| SavedRecipes.ApplyAck | App.tsx:410-418 | an unacknowledged write leaves the list unchanged; an acknowledged delete is exactly the name filter of the list, so nothing is added; an acknowledged insert appends the recipe |
| SavedRecipes.BeginToggle | App.tsx:405-415 | a tap makes no call without a recipe or a user, and otherwise makes the toggle call and keeps the list as it was at the tap |
| SavedRecipes.CompleteToggle | App.tsx:410-418 | without an acknowledgement the current list stays; with one the list becomes the tap-time list with the write applied |
| SavedRecipes.DoubleTapInsertsTwiceKeepsOneCopy | App.tsx:405-418 | two taps on an unsaved recipe before any answer send two inserts, yet the list ends with the recipe once |
| SavedRecipes.Toggle | App.tsx:405-418 | with no event between tap and answer, an acknowledged toggle of a saved name is exactly the name filter of the list and otherwise appends the recipe, so the name flips and every other recipe stays; without a recipe, a user or an acknowledgement nothing changes |
| SavedRecipes.ToggleTwiceRestoresList | App.tsx:405-418 | two acknowledged toggles of an unsaved recipe give back exactly the original list |
| SavedRecipes.ToggleTwiceRestoresNames | App.tsx:405-418 | two acknowledged toggles of any recipe restore the set of saved names |
| SavedRecipes.ReaddedNameRestoresNames | App.tsx:413-417 | filtering out a saved name and then appending a recipe with that name gives back the same set of names |
| Analysis.QueryText | App.tsx:370 | the query is the tapped suggestion when it is non-empty and the typed text otherwise; it is empty only when both are |
| Analysis.InitialControls | App.tsx:79-84 | the home screen starts on Dessert with a 12oz cup and a serving count inside 1..10 |
| Analysis.ChooseProficiency | App.tsx:376-379 | coffee level if the lower-cased text contains "coffee", else beverage level if it contains "drink" or "beverage", else dessert level |
| Analysis.ChooseProficiencyIgnoresCase | App.tsx:376 | the proficiency choice does not depend on letter case |
| Analysis.SizeFor | App.tsx:381 | a cup size is passed exactly for Coffee and Beverage, and it is the selected one |
| Analysis.DeriveRequest | App.tsx:369-382 | no request when both the query text and the file are empty; otherwise the file (or the non-empty text) with the keyword-chosen level, the serving count and the category's size |
| Analysis.DessertPromptHasNoSize | App.tsx:381 | a Dessert request's level context goes straight from the serving sentence to the guidance, with no size sentence |
| Analysis.DecrementServings | App.tsx:684 | the minus button never goes below 1 and otherwise lowers by one |
| Analysis.IncrementServings | App.tsx:688 | the plus button never goes above 10 and otherwise raises by one |
| Analysis.StepperStaysInRange | App.tsx:684-688 | starting inside 1..10, no sequence of presses leaves 1..10 |
| Analysis.SelectCategory | App.tsx:657 | a category tab sets the category and, for Dessert only, resets the cup size to 12oz |
| Analysis.SelectCupSize | App.tsx:699 | a size button changes only the cup size |
| Analysis.DessertResetsCupSize | App.tsx:657 | a size chosen before visiting Dessert is not what the next drink request asks for: it asks for 12oz |
| Profile.DefaultProfile | App.tsx:107-111 | the profile starts with no avatar, no diary and Beginner in every category |
| Profile.WithLevel | App.tsx:472 | the chosen category gets the new level and the others keep theirs |
| Profile.UpdateProficiency | App.tsx:470-475 | nothing without a user; otherwise only the chosen category changes locally, and the backend write carries the same new levels |
| Profile.UpdateProficiencyLaws | App.tsx:472-473 | repeating a level change is harmless, and changes to different categories commute |
| Profile.Caption | App.tsx:449 | a typed caption is kept; a blank one becomes "My " + item name + " creation!" for a named active recipe, or "My Sweet creation!" without one |
| Profile.PostedTextNeverBlank | App.tsx:442-449 | a posted row's text is never empty, and it is the typed caption whenever one was typed |
| Profile.PressShare | App.tsx:611 | the Share button does nothing while a post is in flight, and otherwise runs the post |
| Profile.ShareSendsOneRowAtATime | App.tsx:611 | a second tap on Share while the first post is in flight sends nothing |
| Profile.PostRetryRepeatsPhotoAndCaption | App.tsx:441-466 | after a failed insert the diary is unchanged, Share is enabled again and the retry sends the same photo and caption with the new date |
| Profile.BeginPost | App.tsx:441-451 | nothing without a photo or a user; otherwise the spinner starts and the row carries the compressed photo and the defaulted caption |
| Profile.FinishPost | App.tsx:452-466 | a returned row goes in front of the diary and the modal closes and clears; otherwise the diary and modal stay; the spinner always stops |
| Gemini.SizeContext | geminiService.ts:47 | the size sentence is empty exactly when no size is given, and otherwise contains the size |
| Gemini.LevelContext | geminiService.ts:47-52 | the context opens with the quoted level name and "Scale the recipe for <servings> people." and closes with the level's guidance sentence; exactly the size sentence and one space lie between, so without a size nothing else does |
| Gemini.LevelContextFixesServings | geminiService.ts:48 | two contexts for the same level that ask for different serving counts differ, so the prompt carries the count itself |
| Gemini.BuildRecipeRequest | geminiService.ts:54-68 | a text query gives one text part containing the query and the context; a file gives its inline data with its MIME type first, then one text part containing the context |
| Gemini.FileRequestCarriesPayload | geminiService.ts:59-63 | a photo read as data:<mime>;base64,<payload> is sent as exactly that payload with that MIME type |
| Gemini.RecipeFromReply | geminiService.ts:80-81 | an absent or empty reply text is a failure, undecodable text is a failure, and otherwise the decoded recipe is returned whole |
| Gemini.ReplyParts | geminiService.ts:98 | the parts of the first candidate's content; none when there is no candidate, and none when the first candidate has no content |
| Gemini.FirstImage | geminiService.ts:99-104 | the result is the URL of the first part with inline data, and a failure exactly when no part has inline data |
| Gemini.HeroImage | geminiService.ts:98-104 | the hero image is the data:image/png;base64 URL of the first reply part with inline data, or the hero failure exactly when no part has image data |
| Gemini.StepIllustration | geminiService.ts:121-127 | a step image is the data:image/png;base64 URL of the first reply part with inline data, or the illustration failure exactly when no part has image data |
| Gemini.ImageUrl | geminiService.ts:101 | the URL is the PNG data-URL header followed by the payload |
| Gemini.ImageUrlRoundTrip | geminiService.ts:136 | stripping the header of a generated image URL gives back its payload |
| Gemini.HeroRequest | geminiService.ts:84-96 | the hero request asks the image model for a 16:9 picture whose prompt names the item |
| Gemini.StepRequest | geminiService.ts:107-119 | a step request asks the image model for a 1:1 picture whose prompt starts with the step's prompt |
| Text.SecondField | geminiService.ts:136 | the field after the first comma up to the next comma, and absent exactly when there is no comma |
| Text.SecondFieldOf | geminiService.ts:136 | for a comma-free header and payload, the split returns the payload whether or not more fields follow |
| Text.IntToDecimal | geminiService.ts:48 | the rendered number is non-empty, has no leading zero, carries a minus sign exactly when negative, and reads back as the number |
| Text.IntToDecimalInjective | geminiService.ts:48 | different numbers render as different strings |
| Text.DecimalRoundTrip | geminiService.ts:48 | decimal rendering of a natural number reads back as that number |
| Text.ContainsIffOccurs | App.tsx:378-379 | the keyword test holds exactly when the keyword occurs at some position of the text |
| Text.Lower | App.tsx:376 | `toLowerCase` keeps the length and maps each ASCII capital to its small letter, leaving every other character |
| Text.IndexOf | geminiService.ts:136 | `indexOf` gives the first position holding the character, or none exactly when it does not occur |
| Text.LowerIsLowerCase | App.tsx:376 | after lower-casing no ASCII capital letter remains, and lower-casing again changes nothing |
| App.Initial | App.tsx:77-111 | the app starts signed out on the home tab with no recipe, no illustrations, no saved recipes and the default profile and controls |
| App.BeginAnalysis | App.tsx:369-374 | a no-op when there is neither text nor file; otherwise the spinner starts and the recipe and all illustrations are cleared before the request goes out, and nothing else changes |
| App.PressAnalyze | App.tsx:728 | the Analyze button does nothing while an analysis runs, and otherwise starts one on the typed text or picked photo |
| App.PressSuggestion | App.tsx:719 | a suggestion becomes the typed text and the analysis starts on it, whether or not one is running |
| App.SuggestionDuringAnalysisStartsAnother | App.tsx:719-728 | during an analysis the Analyze button makes no request, yet a suggestion makes one and clears the recipe again |
| App.TypeText | App.tsx:710 | typing replaces the typed text and drops any picked photo and its preview, and changes nothing else |
| App.TypingAndPickingExclude | App.tsx:710 | after typing the analysis asks about exactly the typed text (none when it is empty); after picking it asks about the photo |
| App.RecipeArrived | App.tsx:382-383 | a returned recipe becomes active while the spinner keeps running; a failed reply changes nothing |
| App.AnalysisDone | App.tsx:400-401 | the `finally` stops the spinner and changes nothing else |
| App.EmptyReplyLeavesNoRecipe | App.tsx:373-383 | a reply without text ends the analysis with no active recipe, since the old one was cleared at the start |
| App.AnalysisYieldsRecipeOrNothing | App.tsx:369-383 | when the reply arrives the spinner is still running, the illustration map is empty, and there is a recipe exactly when the reply succeeded, and then it is the returned one |
| App.ActivateRecipe | App.tsx:304-315 | with a recipe the recipe tab opens; a picked photo becomes the hero with no fetch, otherwise the hero is fetched by item name; every step with no picture and no fetch in flight is dispatched |
| App.PlanOnEmptyMapIsAllSteps | App.tsx:309-313 | against an empty map every step is dispatched, in order |
| App.EffectIgnoresSpinner | App.tsx:304-315 | stopping the spinner before or after the recipe effect gives the same state and the same fetches |
| App.SpinnerStopsWithStepsInFlight | App.tsx:304-401 | when a successful analysis's spinner stops, the recipe tab shows the new recipe and every step has a fetch in flight |
| App.FreshRecipeFetchesEveryStep | App.tsx:304-315 | after a fresh analysis every step of the new recipe is dispatched, and the hero is fetched exactly when no photo was picked |
| App.LateStepReplyHidesFreshStep | App.tsx:304-374 | a previous recipe's step reply landing during the analysis keeps its picture on the new recipe's step of that number, which is then not fetched |
| App.HeroFinished | App.tsx:317-328 | the hero spinner stops; a returned image is shown; a failure keeps the hero as it was |
| App.StepFinished | App.tsx:335-346 | a finished step fetch changes only that step's entry: a success shows exactly the returned url, a failure keeps the old url and says "Retrying..."; it is no longer loading |
| App.OpenRecipe | App.tsx:856 | reopening a recipe makes it active, forgets the picked photo and keeps the illustration map |
| App.ReopenedRecipeKeepsPictures | App.tsx:856 | a reopened recipe does not refetch a step number that already shows a picture |
| App.ChooseFile | App.tsx:349-356 | picking a photo selects it, shows its preview and clears the typed text |
| App.ToggleSave | App.tsx:405-418 | only the saved list can change; an acknowledged toggle of a saved name filters it out and otherwise appends the recipe, keeping every other recipe |
| App.SetProficiency | App.tsx:470-475 | only the chosen category's level changes (avatar, diary and other levels stay), and the backend write carries the new levels |
| App.Logout | App.tsx:297-302 | logout ends the session, shows the home tab and clears the active recipe, and changes nothing else |
| App.LoggedOutMakesNoWrites | App.tsx:297-302 | after logout the save button makes no call, the proficiency change sends no write and the diary post sends no row |

## Left out

- The remote calls themselves: identity provider, database and both generative services. Their replies are inputs to the model.
- `JSON.parse` of the recipe text. Its result is an input (`parsed`) to `Gemini.RecipeFromReply`, and no schema is checked.
- The hydration fetches on session change (App.tsx:166-206), and session restoration with its username derivation (App.tsx:131-155). These are remote reads and a subscription.
- The history insert and its refetch after an analysis (App.tsx:385-396). They are remote I/O whose result replaces the list wholesale.
- `syncProfile` (App.tsx:157-164), avatar upload and the username save. These are backend writes whose failures are only logged.
- `compressImage` (App.tsx:39-66): canvas drawing and floating-point scaling. The compressed photo is an input to `Profile.BeginPost`.
- `handlePostImageSelect`, `URL.createObjectURL`, `FileReader`, `navigator.share`, the clipboard, `alert`, console logging and ISO timestamps. These are browser I/O.
- Timer scheduling and effect lifecycles. A cooldown tick is an explicit event (`Auth.Tick`).
- All JSX layout and styling, and the handlers that are plain field setters: the tab bar, the credential text fields, the post modal's open and cancel buttons and its caption box and photo picker, the profile edit toggle and `handleShare` (App.tsx:538-642, 741-978). The modelled handlers are listed in the table above.
- services/geminiService.ts: an older copy of the service wrapper that the app does not import.
- App.ActivateRecipe: the recipe effect runs only when the recipe reference changes (App.tsx:315). Tapping the recipe that is already active (App.tsx:856, 882) sets the same object, so the effect does not run, the tab does not switch and nothing is dispatched. Dafny values have no identity, so the model lets its callers apply the effect after any activation, including a repeated one.
- App.FreshRecipeFetchesEveryStep: assumes no step reply of the previous recipe arrives between the start of the analysis and the recipe effect. `App.LateStepReplyHidesFreshStep` shows what happens when one does.
- App.ToggleSave: applies the tap and its answer with no event in between. Interleaved taps are modelled by `SavedRecipes.BeginToggle` and `SavedRecipes.CompleteToggle`, where each answer rewrites the list captured at its tap.
- Text.Lower: lower-cases ASCII letters only, because JavaScript's Unicode case mapping is not modelled.
- Auth.Validate: counts the password length in characters, where JavaScript counts UTF-16 code units.

=== FILE: analysis.dfy ===
/** How `startAnalysis` derives its request from the home screen (App.tsx),
    and the home-screen controls that feed it: category tabs, cup size and the
    serving-count stepper. */
module Analysis {
  import opened Wrappers
  import opened Text
  import opened Types
  import opened Gemini

  const MinServings := 1
  const MaxServings := 10
  const DefaultServings := 2
  const DefaultCupSize := "12oz"

  /** The home-screen controls: the selected category, cup size and serving count. */
  datatype HomeControls = HomeControls(category: Category, cupSize: string, servings: int)

  /** The parameters of one `analyzeInput` call. */
  datatype Request = Request(input: AnalysisInput, proficiency: ProficiencyLevel, servings: int, size: Option<string>)

  /** The controls as the application first shows them. */
  function InitialControls(): (h: HomeControls)
    ensures h.category == Dessert && h.cupSize == DefaultCupSize
    ensures MinServings <= h.servings <= MaxServings
  {
    HomeControls(Dessert, DefaultCupSize, DefaultServings)
  }

  /** `customText || inputText`: a suggestion tapped on the home screen wins over
      the typed text unless it is empty. */
  function QueryText(custom: Option<string>, inputText: string): (r: string)
    ensures r == inputText || (custom.Some? && r == custom.value)
    ensures custom.Some? && custom.value != "" ==> r == custom.value
    ensures r == "" <==> (custom.None? || custom.value == "") && inputText == ""
  {
    if custom.Some? && custom.value != "" then custom.value else inputText
  }

  /** The proficiency used for a query: the coffee level when the lower-cased text
      mentions "coffee", else the beverage level when it mentions "drink" or
      "beverage", else the dessert level. */
  function ChooseProficiency(levels: ProficiencyLevels, query: string): (r: ProficiencyLevel)
    ensures Contains(Lower(query), "coffee") ==> r == levels.coffee
    ensures !Contains(Lower(query), "coffee") && (Contains(Lower(query), "drink") || Contains(Lower(query), "beverage")) ==>
      r == levels.beverage
    ensures !Contains(Lower(query), "coffee") && !Contains(Lower(query), "drink") && !Contains(Lower(query), "beverage") ==>
      r == levels.dessert
  {
    var text := Lower(query);
    if Contains(text, "coffee") then levels.coffee
    else if Contains(text, "drink") || Contains(text, "beverage") then levels.beverage
    else levels.dessert
  }

  /** The choice does not depend on letter case. */
  lemma ChooseProficiencyIgnoresCase(levels: ProficiencyLevels, query: string)
    ensures ChooseProficiency(levels, Lower(query)) == ChooseProficiency(levels, query)
  {
    LowerIsLowerCase(query);
  }

  /** The cup size passed along: the selected size for Coffee and Beverage, none for Dessert. */
  function SizeFor(category: Category, selected: string): (r: Option<string>)
    ensures r.Some? <==> category == Coffee || category == Beverage
    ensures r.Some? ==> r.value == selected
  {
    if category == Coffee || category == Beverage then Some(selected) else None
  }

  /** The request `startAnalysis` makes, or `None` when there is neither query
      text nor a picked file. A picked file is sent in place of the text, but
      the proficiency is still chosen from the text. */
  function DeriveRequest(custom: Option<string>, inputText: string, file: Option<File>,
                         levels: ProficiencyLevels, h: HomeControls): (r: Option<Request>)
    ensures r.None? <==> QueryText(custom, inputText) == "" && file.None?
    ensures r.Some? ==>
      && r.value.proficiency == ChooseProficiency(levels, QueryText(custom, inputText))
      && r.value.servings == h.servings
      && r.value.size == SizeFor(h.category, h.cupSize)
      && (file.Some? ==> r.value.input == FileInput(file.value))
      && (file.None? ==> r.value.input == TextInput(QueryText(custom, inputText)) && r.value.input.query != "")
  {
    var q := QueryText(custom, inputText);
    if q == "" && file.None? then None
    else
      var input := if file.Some? then FileInput(file.value) else TextInput(q);
      Some(Request(input, ChooseProficiency(levels, q), h.servings, SizeFor(h.category, h.cupSize)))
  }

  /** A Dessert request never carries a size sentence in its prompt: the level
      context goes straight from the serving sentence to the guidance. */
  lemma DessertPromptHasNoSize(custom: Option<string>, inputText: string, file: Option<File>,
                               levels: ProficiencyLevels, h: HomeControls)
    requires h.category == Dessert
    requires DeriveRequest(custom, inputText, file, levels, h).Some?
    ensures SizeContext(DeriveRequest(custom, inputText, file, levels, h).value.size) == ""
    ensures
      var req := DeriveRequest(custom, inputText, file, levels, h).value;
      LevelContext(req.proficiency, req.servings, req.size)
        == LevelLead(req.proficiency) + IntToDecimal(req.servings) + " people." + " " + Guidance(req.proficiency)
  {
  }

  /** The minus button: `Math.max(1, servings - 1)`. */
  function DecrementServings(n: int): (r: int)
    ensures r >= MinServings
    ensures n > MinServings ==> r == n - 1
    ensures n <= MinServings ==> r == MinServings
  {
    if n - 1 > MinServings then n - 1 else MinServings
  }

  /** The plus button: `Math.min(10, servings + 1)`. */
  function IncrementServings(n: int): (r: int)
    ensures r <= MaxServings
    ensures n < MaxServings ==> r == n + 1
    ensures n >= MaxServings ==> r == MaxServings
  {
    if n + 1 < MaxServings then n + 1 else MaxServings
  }

  /** A sequence of stepper presses (`true` is plus, `false` is minus). */
  function PressAll(n: int, presses: seq<bool>): int
    decreases |presses|
  {
    if |presses| == 0 then n
    else PressAll(if presses[0] then IncrementServings(n) else DecrementServings(n), presses[1..])
  }

  /** Starting inside [1, 10], no sequence of presses leaves that range. */
  lemma {:induction false} StepperStaysInRange(n: int, presses: seq<bool>)
    requires MinServings <= n <= MaxServings
    ensures MinServings <= PressAll(n, presses) <= MaxServings
    decreases |presses|
  {
    if |presses| > 0 {
      StepperStaysInRange(if presses[0] then IncrementServings(n) else DecrementServings(n), presses[1..]);
    }
  }

  /** A category tab: the category changes, and choosing Dessert puts the cup
      size back to its default. */
  function SelectCategory(h: HomeControls, c: Category): (r: HomeControls)
    ensures r.category == c && r.servings == h.servings
    ensures c == Dessert ==> r.cupSize == DefaultCupSize
    ensures c != Dessert ==> r.cupSize == h.cupSize
  {
    h.(category := c, cupSize := if c == Dessert then DefaultCupSize else h.cupSize)
  }

  /** A size button: only the cup size changes. */
  function SelectCupSize(h: HomeControls, size: string): (r: HomeControls)
    ensures r.cupSize == size && r.(cupSize := h.cupSize) == h
  {
    h.(cupSize := size)
  }

  /** Going through Dessert on the way to a drink category discards the chosen
      size: the next drink request asks for the default size. */
  lemma DessertResetsCupSize(h: HomeControls, size: string, c: Category)
    requires c != Dessert
    ensures SizeFor(c, SelectCategory(SelectCategory(SelectCupSize(h, size), Dessert), c).cupSize) == Some(DefaultCupSize)
  {
  }
}

=== FILE: app.dfy ===
/** The application state of App.tsx as one immutable record, and each handler
    or effect as a function from the state (and a remote reply, where there is
    one) to the next state. */
module App {
  import opened Wrappers
  import opened Types
  import opened Gemini
  import Illustrations
  import SavedRecipes
  import Analysis
  import Profile

  datatype Tab = HomeTab | SavedTab | ProfileTab | RecipeTab | HistoryTab

  /** Everything the handlers read or write, apart from the authentication gate. */
  datatype AppState = AppState(
    userId: Option<string>,
    tab: Tab,
    controls: Analysis.HomeControls,
    inputText: string,
    selectedFile: Option<File>,
    previewUrl: Option<string>,
    analyzing: bool,
    recipe: Option<RecipeData>,
    hero: Option<string>,
    heroLoading: bool,
    illustrations: IllustrationState,
    saved: seq<RecipeData>,
    profile: UserProfile,
    post: Profile.PostFlow)

  /** The state the application starts in. */
  function Initial(): (s: AppState)
    ensures s.userId.None? && s.tab == HomeTab && s.recipe.None? && !s.analyzing
    ensures s.illustrations == map[] && s.saved == []
    ensures s.controls == Analysis.InitialControls()
    ensures s.profile == Profile.DefaultProfile()
  {
    AppState(None, HomeTab, Analysis.InitialControls(), "", None, None, false, None, None, false,
             map[], [], Profile.DefaultProfile(), Profile.PostFlow(false, None, "", false))
  }

  /** The state after `startAnalysis`'s synchronous part, and the request it makes, if any. */
  datatype AnalysisStart = AnalysisStart(state: AppState, request: Option<Analysis.Request>)

  /** `startAnalysis` up to the service call: a no-op when there is neither text
      nor a file; otherwise the spinner starts and the previous recipe and all
      illustrations are cleared before the request goes out. */
  function BeginAnalysis(s: AppState, custom: Option<string>): (r: AnalysisStart)
    ensures Analysis.QueryText(custom, s.inputText) == "" && s.selectedFile.None? ==> r == AnalysisStart(s, None)
    ensures !(Analysis.QueryText(custom, s.inputText) == "" && s.selectedFile.None?) ==>
      && r.request.Some?
      && r.request == Analysis.DeriveRequest(custom, s.inputText, s.selectedFile, s.profile.levels, s.controls)
      && r.state.analyzing && r.state.recipe.None? && r.state.illustrations == map[]
      && r.state.(analyzing := s.analyzing, recipe := s.recipe, illustrations := s.illustrations) == s
  {
    var request := Analysis.DeriveRequest(custom, s.inputText, s.selectedFile, s.profile.levels, s.controls);
    if request.None? then AnalysisStart(s, None)
    else AnalysisStart(s.(analyzing := true, recipe := None, illustrations := map[]), request)
  }

  /** The Analyze button: disabled while an analysis runs; otherwise it runs
      `startAnalysis` on the typed text (and is a no-op without text or file). */
  function PressAnalyze(s: AppState): (r: AnalysisStart)
    ensures s.analyzing ==> r == AnalysisStart(s, None)
    ensures !s.analyzing ==> r == BeginAnalysis(s, None)
  {
    if s.analyzing then AnalysisStart(s, None) else BeginAnalysis(s, None)
  }

  /** A suggestion button: the suggestion becomes the typed text and the
      analysis starts on it. The button is not disabled while an analysis runs. */
  function PressSuggestion(s: AppState, item: string): (r: AnalysisStart)
    ensures r.state.inputText == item
    ensures r == BeginAnalysis(s.(inputText := item), Some(item))
  {
    BeginAnalysis(s.(inputText := item), Some(item))
  }

  /** Only the Analyze button is gated on a running analysis: a suggestion
      tapped meanwhile starts a second one, which clears the recipe again. */
  lemma SuggestionDuringAnalysisStartsAnother(s: AppState, item: string)
    requires s.analyzing && item != ""
    ensures PressAnalyze(s).request.None?
    ensures
      var r := PressSuggestion(s, item);
      && r.request.Some? && r.request.value.input == (if s.selectedFile.Some? then FileInput(s.selectedFile.value) else TextInput(item))
      && r.state.analyzing && r.state.recipe.None?
  {
  }

  /** Typing in the search box: the text replaces the typed text and any picked photo is dropped. */
  function TypeText(s: AppState, text: string): (r: AppState)
    ensures r.inputText == text && r.selectedFile.None? && r.previewUrl.None?
    ensures r.(inputText := s.inputText, selectedFile := s.selectedFile, previewUrl := s.previewUrl) == s
  {
    s.(inputText := text, selectedFile := None, previewUrl := None)
  }

  /** Typing and picking a photo exclude each other: after typing the analysis
      asks about exactly the typed text, and after picking it asks about the photo. */
  lemma TypingAndPickingExclude(s: AppState, text: string, f: File, objectUrl: string)
    requires !s.analyzing
    ensures
      var t := PressAnalyze(TypeText(s, text));
      && (text == "" <==> t.request.None?)
      && (text != "" ==> t.request.value.input == TextInput(text))
    ensures PressAnalyze(ChooseFile(s, f, objectUrl)).request.value.input == FileInput(f)
  {
  }

  /** The reply reaching `startAnalysis`: a recipe becomes the active recipe
      while the spinner keeps running (it stops only in `finally`, after the
      history write when signed in); a failure changes nothing yet. */
  function RecipeArrived(s: AppState, outcome: Result<RecipeData, GenerationFailure>): (r: AppState)
    ensures r.analyzing == s.analyzing
    ensures outcome.Success? ==> r.recipe == Some(outcome.value)
    ensures outcome.Failure? ==> r == s
    ensures r.(recipe := s.recipe) == s
  {
    match outcome
    case Success(data) => s.(recipe := Some(data))
    case Failure(_) => s
  }

  /** The `finally` of `startAnalysis`: only the spinner stops. */
  function AnalysisDone(s: AppState): (r: AppState)
    ensures !r.analyzing
    ensures r.(analyzing := s.analyzing) == s
  {
    s.(analyzing := false)
  }

  /** When the reply arrives the analysis is still running, and there is a
      recipe exactly when the reply succeeded, over an empty illustration map. */
  lemma AnalysisYieldsRecipeOrNothing(s: AppState, custom: Option<string>, outcome: Result<RecipeData, GenerationFailure>)
    requires BeginAnalysis(s, custom).request.Some?
    ensures
      var r := RecipeArrived(BeginAnalysis(s, custom).state, outcome);
      && r.analyzing && r.illustrations == map[]
      && (outcome.Success? <==> r.recipe.Some?)
      && (outcome.Success? ==> r.recipe.value == outcome.value)
  {
  }

  /** A reply without text ends the analysis with no recipe at all: the previous
      recipe was cleared when the analysis began. */
  lemma EmptyReplyLeavesNoRecipe(s: AppState, custom: Option<string>, text: Option<string>, parsed: Option<RecipeData>)
    requires BeginAnalysis(s, custom).request.Some?
    requires text.None? || text.value == ""
    ensures
      var r := AnalysisDone(RecipeArrived(BeginAnalysis(s, custom).state, RecipeFromReply(text, parsed)));
      && !r.analyzing && r.recipe.None?
  {
  }

  /** The state after the recipe effect, the hero fetch it starts (by item name)
      and the step fetches it starts. */
  datatype Activation = Activation(state: AppState, heroFetch: Option<string>, stepFetches: seq<RecipeStep>)

  /** A picked photo is present (`previewUrl` is truthy). */
  predicate HasPreview(s: AppState)
  {
    s.previewUrl.Some? && s.previewUrl.value != ""
  }

  /** The recipe effect: with an active recipe, the recipe tab opens; the hero
      is the picked photo when there is one (no service call) and is fetched
      otherwise; and every step with no picture and no fetch in flight is
      dispatched. Without a recipe nothing happens. */
  function ActivateRecipe(s: AppState): (r: Activation)
    ensures s.recipe.None? ==> r == Activation(s, None, [])
    ensures s.recipe.Some? ==>
      && r.state.tab == RecipeTab
      && r.stepFetches == Illustrations.FetchPlan(s.recipe.value.steps, s.illustrations)
      && r.state.illustrations == Illustrations.DispatchAll(s.illustrations, r.stepFetches)
      && (HasPreview(s) ==> r.heroFetch.None? && r.state.hero == s.previewUrl && r.state.heroLoading == s.heroLoading)
      && (!HasPreview(s) ==> r.heroFetch == Some(s.recipe.value.itemName) && r.state.hero.None? && r.state.heroLoading)
      && r.state.(tab := s.tab, hero := s.hero, heroLoading := s.heroLoading, illustrations := s.illustrations) == s
  {
    if s.recipe.None? then Activation(s, None, [])
    else
      var recipe := s.recipe.value;
      var plan := Illustrations.FetchPlan(recipe.steps, s.illustrations);
      var s1 := s.(tab := RecipeTab, illustrations := Illustrations.DispatchAll(s.illustrations, plan));
      if HasPreview(s) then Activation(s1.(hero := s.previewUrl), None, plan)
      else Activation(s1.(hero := None, heroLoading := true), Some(recipe.itemName), plan)
  }

  /** Against an empty illustration map every step needs a fetch. */
  lemma {:induction false} PlanOnEmptyMapIsAllSteps(steps: seq<RecipeStep>)
    ensures Illustrations.FetchPlan(steps, map[]) == steps
    decreases |steps|
  {
    if |steps| > 0 {
      PlanOnEmptyMapIsAllSteps(steps[1..]);
      assert steps == [steps[0]] + steps[1..];
    }
  }

  /** After a fresh analysis, the recipe effect dispatches every step of the new
      recipe, and fetches the hero exactly when no photo was picked. */
  lemma FreshRecipeFetchesEveryStep(s: AppState, custom: Option<string>, data: RecipeData)
    requires BeginAnalysis(s, custom).request.Some?
    ensures
      var a := ActivateRecipe(RecipeArrived(BeginAnalysis(s, custom).state, Success(data)));
      && a.stepFetches == data.steps
      && (a.heroFetch.Some? <==> !HasPreview(s))
  {
    PlanOnEmptyMapIsAllSteps(data.steps);
  }

  /** Whether the spinner stops before or after the recipe effect (the two
      orders React may take, depending on whether the history write is awaited)
      makes no difference: the effect does not read the spinner. */
  lemma EffectIgnoresSpinner(s: AppState)
    ensures
      var a, b := ActivateRecipe(AnalysisDone(s)), ActivateRecipe(s);
      && a.state == AnalysisDone(b.state)
      && a.heroFetch == b.heroFetch && a.stepFetches == b.stepFetches
  {
  }

  /** When a successful analysis's spinner stops, the recipe tab shows the new
      recipe and every one of its steps already has a fetch in flight. */
  lemma SpinnerStopsWithStepsInFlight(s: AppState, custom: Option<string>, data: RecipeData)
    requires BeginAnalysis(s, custom).request.Some?
    ensures
      var d := AnalysisDone(ActivateRecipe(RecipeArrived(BeginAnalysis(s, custom).state, Success(data))).state);
      && !d.analyzing && d.tab == RecipeTab && d.recipe == Some(data)
      && forall st :: st in data.steps ==> st.stepNumber in d.illustrations && d.illustrations[st.stepNumber].loading
  {
    FreshRecipeFetchesEveryStep(s, custom, data);
    var a := ActivateRecipe(RecipeArrived(BeginAnalysis(s, custom).state, Success(data)));
    forall st | st in data.steps
      ensures st.stepNumber in a.state.illustrations && a.state.illustrations[st.stepNumber].loading
    {
      assert st.stepNumber in Illustrations.Numbers(a.stepFetches);
    }
  }

  /** A step reply of the previous recipe that lands while the new analysis
      runs writes into the freshly cleared map, so the new recipe's step with
      that number is not dispatched and shows the old picture. */
  lemma LateStepReplyHidesFreshStep(s: AppState, custom: Option<string>, data: RecipeData, st: RecipeStep, url: string)
    requires BeginAnalysis(s, custom).request.Some?
    requires st in data.steps && url != ""
    ensures
      var late := StepFinished(BeginAnalysis(s, custom).state, st.stepNumber, Success(url));
      var a := ActivateRecipe(RecipeArrived(late, Success(data)));
      && st !in a.stepFetches
      && a.state.illustrations[st.stepNumber].url == Some(url)
  {
  }

  /** The hero fetch's end: the spinner stops and a returned image is shown; on
      failure the hero stays empty. */
  function HeroFinished(s: AppState, outcome: Result<string, string>): (r: AppState)
    ensures !r.heroLoading
    ensures outcome.Success? ==> r.hero == Some(outcome.value)
    ensures outcome.Failure? ==> r.hero == s.hero
    ensures r.(hero := s.hero, heroLoading := s.heroLoading) == s
  {
    match outcome
    case Success(url) => s.(hero := Some(url), heroLoading := false)
    case Failure(_) => s.(heroLoading := false)
  }

  /** One step fetch's end: only that step's entry changes. */
  function StepFinished(s: AppState, n: int, outcome: Result<string, string>): (r: AppState)
    ensures Illustrations.OnlyKeyChanged(s.illustrations, r.illustrations, n)
    ensures !r.illustrations[n].loading
    ensures outcome.Success? ==> r.illustrations[n] == Illustration(Some(outcome.value), false, None)
    ensures outcome.Failure? ==>
      r.illustrations[n].url == Illustrations.PriorUrl(s.illustrations, n) && r.illustrations[n].error == Some(Illustrations.RetryingText)
    ensures r.(illustrations := s.illustrations) == s
  {
    s.(illustrations := Illustrations.Complete(s.illustrations, n, outcome))
  }

  /** Opening a saved or history recipe: it becomes active and the picked photo
      is forgotten; the illustration map is kept as it is. */
  function OpenRecipe(s: AppState, recipe: RecipeData): (r: AppState)
    ensures r.recipe == Some(recipe) && r.previewUrl.None?
    ensures r.illustrations == s.illustrations
    ensures r.(recipe := s.recipe, previewUrl := s.previewUrl) == s
  {
    s.(recipe := Some(recipe), previewUrl := None)
  }

  /** Because opening a recipe keeps the map, a step number that already shows
      a picture from an earlier recipe is not fetched for the reopened one. */
  lemma ReopenedRecipeKeepsPictures(s: AppState, recipe: RecipeData, st: RecipeStep)
    requires st in recipe.steps && Illustrations.HasImage(s.illustrations, st.stepNumber)
    ensures st !in ActivateRecipe(OpenRecipe(s, recipe)).stepFetches
    ensures ActivateRecipe(OpenRecipe(s, recipe)).state.illustrations[st.stepNumber] == s.illustrations[st.stepNumber]
  {
  }

  /** Picking a photo: it becomes the selected file and the preview, and the typed text is cleared. */
  function ChooseFile(s: AppState, f: File, objectUrl: string): (r: AppState)
    ensures r.selectedFile == Some(f) && r.previewUrl == Some(objectUrl) && r.inputText == ""
    ensures r.(selectedFile := s.selectedFile, previewUrl := s.previewUrl, inputText := s.inputText) == s
  {
    s.(selectedFile := Some(f), previewUrl := Some(objectUrl), inputText := "")
  }

  /** The save button, with the backend's answer: only the saved list can change. */
  function ToggleSave(s: AppState, ack: SavedRecipes.Ack): (r: AppState)
    ensures r.(saved := s.saved) == s
    ensures s.recipe.None? || s.userId.None? || ack != SavedRecipes.Acknowledged ==> r.saved == s.saved
    ensures s.recipe.Some? && s.userId.Some? && ack == SavedRecipes.Acknowledged ==>
      (SavedRecipes.HasName(r.saved, s.recipe.value.itemName) <==> !SavedRecipes.HasName(s.saved, s.recipe.value.itemName))
    ensures s.recipe.Some? && s.userId.Some? && ack == SavedRecipes.Acknowledged ==>
      && (SavedRecipes.HasName(s.saved, s.recipe.value.itemName) ==> r.saved == SavedRecipes.RemoveByName(s.saved, s.recipe.value.itemName))
      && (!SavedRecipes.HasName(s.saved, s.recipe.value.itemName) ==> r.saved == s.saved + [s.recipe.value])
  {
    s.(saved := SavedRecipes.Toggle(s.saved, s.recipe, s.userId, ack))
  }

  /** A proficiency toggle: only the profile's levels can change, and the
      returned levels are what the backend write carries. */
  function SetProficiency(s: AppState, c: Category, l: ProficiencyLevel): (r: (AppState, Option<ProficiencyLevels>))
    ensures r.0.(profile := s.profile) == s
    ensures s.userId.None? ==> r.0 == s && r.1.None?
    ensures s.userId.Some? ==> r.0.profile.levels.Get(c) == l && r.1 == Some(r.0.profile.levels)
    ensures forall c' :: c' != c ==> r.0.profile.levels.Get(c') == s.profile.levels.Get(c')
    ensures r.0.profile.avatar == s.profile.avatar && r.0.profile.diaries == s.profile.diaries
  {
    var u := Profile.UpdateProficiency(s.profile, s.userId, c, l);
    (s.(profile := u.profile), u.sync)
  }

  /** Logging out: the session ends, the home tab shows and no recipe is
      active; nothing else is reset. */
  function Logout(s: AppState): (r: AppState)
    ensures r.userId.None? && r.tab == HomeTab && r.recipe.None?
    ensures r.(userId := s.userId, tab := s.tab, recipe := s.recipe) == s
  {
    s.(userId := None, tab := HomeTab, recipe := None)
  }

  /** After logging out no save, proficiency change or diary post reaches the backend. */
  lemma LoggedOutMakesNoWrites(s: AppState, ack: SavedRecipes.Ack, c: Category, l: ProficiencyLevel, compressed: string, date: string)
    ensures SavedRecipes.BeginToggle(Logout(s).saved, Logout(s).recipe, Logout(s).userId).None?
    ensures ToggleSave(Logout(s), ack).saved == s.saved
    ensures SetProficiency(Logout(s), c, l).1.None?
    ensures Profile.BeginPost(Logout(s).post, Logout(s).userId, Logout(s).recipe, compressed, date).row.None?
  {
  }
}

=== FILE: auth.dfy ===
/** The authentication gate of App.tsx: local credential checks, the mapping of
    sign-in, sign-up and resend replies to what the gate shows, and the
    cooldown that disables its buttons. Every handler is split at its remote
    call: a `Begin…` function decides whether the call is made, and a
    `Complete…` function applies the reply. */
module Auth {
  import opened Wrappers
  import opened Text

  const MinPasswordLength := 6
  const RateLimitStatus := 429
  /** Cooldown, in ticks of one second, after a rate-limit reply or a resent link. */
  const RateLimitCooldown := 60
  /** Cooldown after a sign-up that still awaits email confirmation. */
  const ConfirmCooldown := 30

  const FillFields := "Please fill in all required fields."
  const ShortPassword := "Password must be at least 6 characters long."
  const NotConfirmed := "Your email is not confirmed. Please check your inbox or resend the link."
  const SignUpRateLimited := "Email rate limit reached. Please wait a moment."
  const CheckInbox := "Success! Check your email inbox (and spam folder) for the confirmation link."
  const Welcome := "Welcome to SweetSpot!"
  const Unexpected := "An unexpected error occurred. Please try again."
  const ResendRateLimited := "Too many requests. Please wait a minute."
  const Resent := "Confirmation email resent! Please check your spam folder."
  const ResendFailed := "Failed to resend email."

  datatype Mode = SignInMode | SignUpMode

  datatype Credentials = Credentials(username: string, email: string, password: string)

  /** Everything the gate shows: mode, form, spinner, error and info banners,
      the resend button, and the cooldown counter in seconds. */
  datatype Gate = Gate(
    mode: Mode,
    form: Credentials,
    loading: bool,
    error: Option<string>,
    message: Option<string>,
    showResend: bool,
    cooldown: nat)

  /** A call to the identity provider. */
  datatype AuthCall =
    | SignInCall(email: string, password: string)
    | SignUpCall(email: string, password: string, username: string)
    | ResendCall(email: string)

  /** The gate after a handler's synchronous part, and the call it makes, if any. */
  datatype Started = Started(gate: Gate, call: Option<AuthCall>)

  /** A reply to a sign-in: accepted, rejected with a message, or an exception. */
  datatype SignInReply = SignInAccepted | SignInRejected(message: string) | SignInThrew

  /** A reply to a sign-up: an error with HTTP status, data telling whether a user
      and a session were issued, or an exception. */
  datatype SignUpReply =
    | SignUpRejected(status: int, message: string)
    | SignUpAccepted(hasUser: bool, hasSession: bool)
    | SignUpThrew

  /** A reply to a confirmation resend. */
  datatype ResendReply = ResendRejected(status: int, message: string) | ResendAccepted | ResendThrew

  /** The gate as the application first shows it. */
  function InitialGate(): (g: Gate)
    ensures g.mode == SignInMode && !g.loading && g.cooldown == 0
    ensures g.error.None? && g.message.None? && !g.showResend
    ensures g.form.email == "" && g.form.password == "" && g.form.username == ""
  {
    Gate(SignInMode, Credentials("", "", ""), false, None, None, false, 0)
  }

  /** The local checks, in order: a missing field (the username only counts when
      signing up), then a password that is too short. */
  function Validate(mode: Mode, form: Credentials): (r: Option<string>)
    ensures r == Some(FillFields) <==>
      form.email == "" || form.password == "" || (mode == SignUpMode && form.username == "")
    ensures r == Some(ShortPassword) <==>
      && form.email != "" && form.password != "" && !(mode == SignUpMode && form.username == "")
      && |form.password| < MinPasswordLength
    ensures r.None? <==>
      && form.email != "" && !(mode == SignUpMode && form.username == "")
      && |form.password| >= MinPasswordLength
  {
    assert |FillFields| != |ShortPassword|;
    if form.email == "" || form.password == "" || (mode == SignUpMode && form.username == "") then
      Some(FillFields)
    else if |form.password| < MinPasswordLength then
      Some(ShortPassword)
    else
      None
  }

  /** The synchronous part of `handleAuth`. A failed check shows its error and
      changes nothing else (in particular not `loading`) and calls nothing; a
      passed check clears the banners and the resend button, starts the
      spinner and makes exactly one call matching the mode. */
  function BeginAuth(g: Gate): (r: Started)
    ensures Validate(g.mode, g.form).Some? ==>
      && r.call.None?
      && r.gate.error == Validate(g.mode, g.form)
      && r.gate.(error := g.error) == g
    ensures Validate(g.mode, g.form).None? ==>
      && r.gate.error.None? && r.gate.message.None? && !r.gate.showResend && r.gate.loading
      && r.gate.(loading := g.loading, error := g.error, message := g.message, showResend := g.showResend) == g
      && r.call == Some(
           if g.mode == SignInMode then SignInCall(g.form.email, g.form.password)
           else SignUpCall(g.form.email, g.form.password, g.form.username))
  {
    match Validate(g.mode, g.form)
    case Some(e) => Started(g.(error := Some(e)), None)
    case None =>
      var call := if g.mode == SignInMode then SignInCall(g.form.email, g.form.password)
                  else SignUpCall(g.form.email, g.form.password, g.form.username);
      Started(g.(error := None, message := None, showResend := false, loading := true), Some(call))
  }

  /** The message of a rejected sign-in mentions that the email is not confirmed. */
  predicate MentionsUnconfirmed(message: string)
  {
    Contains(Lower(message), "confirmed")
  }

  /** Applying a sign-in reply: an unconfirmed-email rejection offers the resend
      button with its own message; another rejection is shown verbatim; an
      exception shows the generic message. The spinner always stops, and the
      cooldown and info banner are untouched. */
  function CompleteSignIn(g: Gate, reply: SignInReply): (r: Gate)
    ensures !r.loading
    ensures r.mode == g.mode && r.form == g.form && r.message == g.message && r.cooldown == g.cooldown
    ensures reply.SignInAccepted? ==> r == g.(loading := false)
    ensures reply.SignInRejected? && MentionsUnconfirmed(reply.message) ==>
      r.error == Some(NotConfirmed) && r.showResend
    ensures reply.SignInRejected? && !MentionsUnconfirmed(reply.message) ==>
      r.error == Some(reply.message) && r.showResend == g.showResend
    ensures reply.SignInThrew? ==> r.error == Some(Unexpected) && r.showResend == g.showResend
  {
    match reply
    case SignInAccepted => g.(loading := false)
    case SignInRejected(m) =>
      if MentionsUnconfirmed(m) then g.(error := Some(NotConfirmed), showResend := true, loading := false)
      else g.(error := Some(m), loading := false)
    case SignInThrew => g.(error := Some(Unexpected), loading := false)
  }

  /** Applying a sign-up reply: a 429 starts the 60-second cooldown; another error
      is shown verbatim; a user without a session asks the user to confirm by
      email, offers the resend button and starts the 30-second cooldown; a user
      with a session only shows the welcome message. The spinner always stops. */
  function CompleteSignUp(g: Gate, reply: SignUpReply): (r: Gate)
    ensures !r.loading && r.mode == g.mode && r.form == g.form
    ensures reply.SignUpRejected? && reply.status == RateLimitStatus ==>
      r == g.(error := Some(SignUpRateLimited), cooldown := RateLimitCooldown, loading := false)
    ensures reply.SignUpRejected? && reply.status != RateLimitStatus ==>
      r == g.(error := Some(reply.message), loading := false)
    ensures reply == SignUpAccepted(true, false) ==>
      r == g.(message := Some(CheckInbox), showResend := true, cooldown := ConfirmCooldown, loading := false)
    ensures reply == SignUpAccepted(true, true) ==>
      r == g.(message := Some(Welcome), loading := false)
    ensures reply.SignUpAccepted? && !reply.hasUser ==> r == g.(loading := false)
    ensures reply.SignUpThrew? ==> r == g.(error := Some(Unexpected), loading := false)
  {
    match reply
    case SignUpRejected(status, m) =>
      if status == RateLimitStatus then g.(error := Some(SignUpRateLimited), cooldown := RateLimitCooldown, loading := false)
      else g.(error := Some(m), loading := false)
    case SignUpAccepted(hasUser, hasSession) =>
      if hasUser && !hasSession then
        g.(message := Some(CheckInbox), showResend := true, cooldown := ConfirmCooldown, loading := false)
      else if hasUser && hasSession then
        g.(message := Some(Welcome), loading := false)
      else
        g.(loading := false)
    case SignUpThrew => g.(error := Some(Unexpected), loading := false)
  }

  /** The synchronous part of `handleResendLink`: nothing at all without an email;
      otherwise the spinner starts, the error clears and one resend call is made. */
  function BeginResend(g: Gate): (r: Started)
    ensures g.form.email == "" ==> r == Started(g, None)
    ensures g.form.email != "" ==>
      && r.call == Some(ResendCall(g.form.email))
      && r.gate == g.(loading := true, error := None)
  {
    if g.form.email == "" then Started(g, None)
    else Started(g.(loading := true, error := None), Some(ResendCall(g.form.email)))
  }

  /** Applying a resend reply: a 429 shows the wait message and starts the
      60-second cooldown; success shows the resent message and also starts it;
      another error shows only its message; an exception shows the failure
      message. The spinner always stops. */
  function CompleteResend(g: Gate, reply: ResendReply): (r: Gate)
    ensures !r.loading && r.mode == g.mode && r.form == g.form && r.showResend == g.showResend
    ensures reply.ResendRejected? && reply.status == RateLimitStatus ==>
      r == g.(error := Some(ResendRateLimited), cooldown := RateLimitCooldown, loading := false)
    ensures reply.ResendRejected? && reply.status != RateLimitStatus ==>
      r == g.(error := Some(reply.message), loading := false)
    ensures reply.ResendAccepted? ==>
      r == g.(message := Some(Resent), cooldown := RateLimitCooldown, loading := false)
    ensures reply.ResendThrew? ==> r == g.(error := Some(ResendFailed), loading := false)
  {
    match reply
    case ResendRejected(status, m) =>
      if status == RateLimitStatus then g.(error := Some(ResendRateLimited), cooldown := RateLimitCooldown, loading := false)
      else g.(error := Some(m), loading := false)
    case ResendAccepted => g.(message := Some(Resent), cooldown := RateLimitCooldown, loading := false)
    case ResendThrew => g.(error := Some(ResendFailed), loading := false)
  }

  /** The mode link under the buttons: flips the mode and clears both banners and
      the resend button. */
  function ToggleMode(g: Gate): (r: Gate)
    ensures r.mode != g.mode
    ensures r.error.None? && r.message.None? && !r.showResend
    ensures r.form == g.form && r.loading == g.loading && r.cooldown == g.cooldown
  {
    g.(mode := if g.mode == SignInMode then SignUpMode else SignInMode,
       error := None, message := None, showResend := false)
  }

  /** One second of the cooldown timer. The timer only runs while the counter is
      positive, so a tick at zero does nothing. */
  function Tick(g: Gate): (r: Gate)
    ensures g.cooldown > 0 ==> r.cooldown == g.cooldown - 1
    ensures g.cooldown == 0 ==> r == g
    ensures r.(cooldown := g.cooldown) == g
  {
    if g.cooldown > 0 then g.(cooldown := g.cooldown - 1) else g
  }

  /** `n` seconds of the timer. */
  function Ticks(g: Gate, n: nat): Gate
    decreases n
  {
    if n == 0 then g else Ticks(Tick(g), n - 1)
  }

  /** After `n` ticks the counter has gone down by `n`, stopping at zero, and
      nothing else on the gate has changed. */
  lemma {:induction false} TicksCountDown(g: Gate, n: nat)
    ensures Ticks(g, n).cooldown == if n <= g.cooldown then g.cooldown - n else 0
    ensures Ticks(g, n).(cooldown := g.cooldown) == g
    decreases n
  {
    if n > 0 {
      TicksCountDown(Tick(g), n - 1);
    }
  }

  /** The submit button is enabled (App.tsx:565). */
  predicate SubmitEnabled(g: Gate)
  {
    !g.loading && g.cooldown == 0
  }

  /** The resend button is shown and enabled (App.tsx:573-575). */
  predicate ResendEnabled(g: Gate)
  {
    g.showResend && !g.loading && g.cooldown == 0
  }

  /** Pressing the submit button: a disabled button does nothing. */
  function PressSubmit(g: Gate): (r: Started)
    ensures !SubmitEnabled(g) ==> r == Started(g, None)
    ensures SubmitEnabled(g) ==> r == BeginAuth(g)
  {
    if SubmitEnabled(g) then BeginAuth(g) else Started(g, None)
  }

  /** Pressing the resend button: a hidden or disabled button does nothing. */
  function PressResend(g: Gate): (r: Started)
    ensures !ResendEnabled(g) ==> r == Started(g, None)
    ensures ResendEnabled(g) ==> r == BeginResend(g)
  {
    if ResendEnabled(g) then BeginResend(g) else Started(g, None)
  }

  /** A valid sign-in rejected because the email is unconfirmed offers the
      resend button, and pressing it resends the link to the typed address. */
  lemma SignInUnconfirmedOffersResend(g: Gate, message: string)
    requires g.mode == SignInMode && SubmitEnabled(g) && Validate(g.mode, g.form).None?
    requires MentionsUnconfirmed(message)
    ensures
      var started := PressSubmit(g);
      && started.call == Some(SignInCall(g.form.email, g.form.password))
      && PressResend(CompleteSignIn(started.gate, SignInRejected(message))).call == Some(ResendCall(g.form.email))
  {
  }

  /** After a rate-limited sign-up, neither button makes a call for the next 59
      ticks, and once 60 ticks have passed the submit button is enabled again. */
  lemma RateLimitHoldsForCooldown(g: Gate, status: int, message: string, k: nat)
    requires status == RateLimitStatus
    ensures
      var h := CompleteSignUp(g, SignUpRejected(status, message));
      && (k < RateLimitCooldown ==> PressSubmit(Ticks(h, k)).call.None? && PressResend(Ticks(h, k)).call.None?)
      && (k >= RateLimitCooldown ==> SubmitEnabled(Ticks(h, k)))
  {
    var h := CompleteSignUp(g, SignUpRejected(status, message));
    TicksCountDown(h, k);
  }

  /** The same holds after a resent link. */
  lemma ResendHoldsForCooldown(g: Gate, k: nat)
    ensures
      var h := CompleteResend(g, ResendAccepted);
      && (k < RateLimitCooldown ==> PressSubmit(Ticks(h, k)).call.None? && PressResend(Ticks(h, k)).call.None?)
      && (k >= RateLimitCooldown ==> SubmitEnabled(Ticks(h, k)))
  {
    var h := CompleteResend(g, ResendAccepted);
    TicksCountDown(h, k);
  }

  /** A sign-up with a five-character password never reaches the network, and a
      filled-in sign-up with a long enough password makes exactly one call. */
  lemma SignUpPasswordCheck(g: Gate)
    requires g.mode == SignUpMode && g.form.email != "" && g.form.username != ""
    ensures |g.form.password| == 5 ==> BeginAuth(g).call.None? && BeginAuth(g).gate.error == Some(ShortPassword)
    ensures |g.form.password| >= 6 ==> BeginAuth(g).call == Some(SignUpCall(g.form.email, g.form.password, g.form.username))
  {
  }
}

=== FILE: gemini.dfy ===
/** The request-building and reply-reading rules of the recipe and image
    service wrapper (geminiService.ts). The calls themselves are not modelled:
    a reply is an input value. */
module Gemini {
  import opened Wrappers
  import opened Text
  import opened Types

  const TextModel := "gemini-3-pro-preview"
  const ImageModel := "gemini-2.5-flash-image"
  const JsonMimeType := "application/json"
  /** What every generated image URL starts with. */
  const ImageUrlPrefix := "data:image/png;base64,"
  const HeroFailure := "Hero image failed."
  const StepFailure := "No illustration could be generated."
  const BeginnerGuidance := "Provide simple, detailed steps and common ingredients."
  const ProfessionalGuidance := "Use technical terminology and advanced techniques."
  const StandardGuidance := "Provide a standard, high-quality recipe."

  /** What the user asks about: a typed query or a picked photo. */
  datatype AnalysisInput = TextInput(query: string) | FileInput(file: File)

  /** One part of a request: text, or inline base64 data (`None` is JavaScript `undefined`). */
  datatype Part = TextPart(text: string) | InlinePart(data: Option<string>, mimeType: string)

  /** The recipe request: model, the parts of its single content block, and the reply format. */
  datatype RecipeRequest = RecipeRequest(model: string, parts: seq<Part>, responseMimeType: string)

  /** An image request: model, prompt and aspect-ratio hint. */
  datatype ImageRequest = ImageRequest(model: string, prompt: string, aspectRatio: string)

  /** Why a recipe could not be produced: no reply text, or text that is not a recipe. */
  datatype GenerationFailure = NoText | Unparseable

  /** A part of a service reply; `inlineData` holds an image when present. */
  datatype InlineData = InlineData(data: string, mimeType: string)
  datatype ResponsePart = ResponsePart(text: Option<string>, inlineData: Option<InlineData>)

  /** A reply candidate; `parts` is `content?.parts`. */
  datatype Candidate = Candidate(parts: Option<seq<ResponsePart>>)

  /** The guidance sentence for a proficiency level. */
  function Guidance(p: ProficiencyLevel): string
  {
    match p
    case Beginner => BeginnerGuidance
    case Professional => ProfessionalGuidance
    case Intermediate => StandardGuidance
  }

  /** The cup-size sentence: empty without a size (or with an empty one),
      otherwise a sentence naming the size. */
  function SizeContext(size: Option<string>): (r: string)
    ensures r == "" <==> size.None? || size.value == ""
    ensures size.Some? && size.value != "" ==> Contains(r, size.value)
  {
    if size.Some? && size.value != "" then
      var r := " Scale the ingredients for a " + size.value + " cup size per serving.";
      ContainsInfix(" Scale the ingredients for a ", size.value, " cup size per serving.");
      r
    else ""
  }

  /** The words before the serving count in the level context. */
  function LevelLead(p: ProficiencyLevel): string
  {
    "The user is at a \"" + LevelName(p) + "\" level. Scale the recipe for "
  }

  /** The context embedded in every recipe prompt: the proficiency name, the
      serving count, the size sentence and the guidance for the level. It opens
      with the level sentence and the serving sentence and closes with the
      level's guidance. */
  function LevelContext(p: ProficiencyLevel, servings: int, size: Option<string>): (r: string)
    ensures LevelLead(p) + IntToDecimal(servings) + " people." <= r
    ensures |Guidance(p)| <= |r| && r[|r| - |Guidance(p)|..] == Guidance(p)
    ensures
      var head := LevelLead(p) + IntToDecimal(servings) + " people.";
      && |head| + |Guidance(p)| <= |r| && r[|head|..|r| - |Guidance(p)|] == SizeContext(size) + " "
    ensures size.None? ==> r == LevelLead(p) + IntToDecimal(servings) + " people." + " " + Guidance(p)
    ensures Contains(r, LevelName(p))
    ensures Contains(r, IntToDecimal(servings))
    ensures Contains(r, SizeContext(size))
    ensures p == Beginner ==> Contains(r, BeginnerGuidance)
    ensures p == Professional ==> Contains(r, ProfessionalGuidance)
    ensures p == Intermediate ==> Contains(r, StandardGuidance)
  {
    var n := IntToDecimal(servings);
    var sc := SizeContext(size);
    var g := Guidance(p);
    SentencePieces("The user is at a \"", LevelName(p), "\" level. Scale the recipe for ", n, " people.", sc, " ", g);
    LevelLead(p) + n + " people." + sc + " " + g
  }

  /** Where the pieces of a sentence built as `lead name mid n tail sc sp g` sit. */
  lemma SentencePieces(lead: string, name: string, mid: string, n: string, tail: string, sc: string, sp: string, g: string)
    ensures
      var r := lead + name + mid + n + tail + sc + sp + g;
      && lead + name + mid + n + tail <= r
      && |g| <= |r| && r[|r| - |g|..] == g
      && |lead + name + mid + n + tail| + |g| <= |r|
      && r[|lead + name + mid + n + tail|..|r| - |g|] == sc + sp
      && Contains(r, name) && Contains(r, n) && Contains(r, sc) && Contains(r, g)
  {
    var s1 := lead + name;
    var s2 := s1 + mid;
    var s3 := s2 + n;
    var s4 := s3 + tail;
    var s5 := s4 + sc;
    var s6 := s5 + sp;
    var r := s6 + g;
    ContainsSuffix(lead, name);
    ContainsAppend(s1, name, mid);
    ContainsAppend(s2, name, n);
    ContainsSuffix(s2, n);
    ContainsAppend(s3, name, tail);
    ContainsAppend(s3, n, tail);
    ContainsAppend(s4, name, sc);
    ContainsAppend(s4, n, sc);
    ContainsSuffix(s4, sc);
    ContainsAppend(s5, name, sp);
    ContainsAppend(s5, n, sp);
    ContainsAppend(s5, sc, sp);
    ContainsAppend(s6, name, g);
    ContainsAppend(s6, n, g);
    ContainsAppend(s6, sc, g);
    ContainsSuffix(s6, g);
    assert s4 <= s5 && s5 <= s6 && s6 <= r;
    assert r[|s6|..] == g;
    assert r[|s4|..|s6|] == sc + sp;
  }

  /** The level context determines the serving count: two prompts for the same
      level that ask for different numbers of people differ. */
  lemma LevelContextFixesServings(p: ProficiencyLevel, a: int, b: int, sa: Option<string>, sb: Option<string>)
    ensures a != b ==> LevelContext(p, a, sa) != LevelContext(p, b, sb)
  {
    if LevelContext(p, a, sa) == LevelContext(p, b, sb) {
      NumeralBeforeSpace(LevelContext(p, a, sa), LevelLead(p), IntToDecimal(a), IntToDecimal(b), " people.");
      IntToDecimalInjective(a, b);
    }
  }

  /** The recipe request of `analyzeInput`: a text query gives one text part;
      a file gives its inline data (the base64 field of its data URL) followed
      by one text part. Both texts carry the level context. */
  function BuildRecipeRequest(input: AnalysisInput, p: ProficiencyLevel, servings: int, size: Option<string>): (r: RecipeRequest)
    ensures r.model == TextModel && r.responseMimeType == JsonMimeType
    ensures input.TextInput? ==>
      && |r.parts| == 1 && r.parts[0].TextPart?
      && Contains(r.parts[0].text, input.query)
      && Contains(r.parts[0].text, LevelContext(p, servings, size))
    ensures input.FileInput? ==>
      && |r.parts| == 2
      && r.parts[0] == InlinePart(SecondField(input.file.dataUrl), input.file.mimeType)
      && r.parts[1].TextPart?
      && Contains(r.parts[1].text, LevelContext(p, servings, size))
  {
    var ctx := LevelContext(p, servings, size);
    match input
    case TextInput(q) =>
      var s1 := "Analyze this sweet: \"" + q;
      var s2 := s1 + "\". ";
      var s3 := s2 + ctx;
      var text := s3 + " Identify and provide recipe JSON.";
      ContainsSuffix("Analyze this sweet: \"", q);
      ContainsAppend(s1, q, "\". ");
      ContainsAppend(s2, q, ctx);
      ContainsSuffix(s2, ctx);
      ContainsAppend(s3, q, " Identify and provide recipe JSON.");
      ContainsAppend(s3, ctx, " Identify and provide recipe JSON.");
      RecipeRequest(TextModel, [TextPart(text)], JsonMimeType)
    case FileInput(f) =>
      var s1 := "Identify this sweet from the image. " + ctx;
      var text := s1 + " Provide recipe JSON.";
      ContainsSuffix("Identify this sweet from the image. ", ctx);
      ContainsAppend(s1, ctx, " Provide recipe JSON.");
      RecipeRequest(TextModel, [InlinePart(SecondField(f.dataUrl), f.mimeType), TextPart(text)], JsonMimeType)
  }

  /** A photo read as `data:<mime>;base64,<payload>` is sent as exactly its payload
      with its own MIME type. */
  lemma FileRequestCarriesPayload(mime: string, payload: string, p: ProficiencyLevel, servings: int, size: Option<string>)
    requires ',' !in mime && ',' !in payload
    ensures
      var f := File(mime, "data:" + mime + ";base64," + payload);
      BuildRecipeRequest(FileInput(f), p, servings, size).parts[0] == InlinePart(Some(payload), mime)
  {
    var head := "data:" + mime + ";base64";
    assert ',' !in head by {
      assert head == "data:" + mime + ";base64";
      forall i | 0 <= i < |head| ensures head[i] != ',' {
        if i >= 5 && i < 5 + |mime| {
          assert head[i] == mime[i - 5];
        }
      }
    }
    assert head + "," + payload == "data:" + mime + ";base64," + payload;
    SecondFieldOf(head, payload, "");
  }

  /** The end of `analyzeInput`: no reply text (or an empty one) is a failure,
      text that does not decode as a recipe is a failure, and otherwise the
      decoded recipe is the result. `parsed` is the outcome of decoding `text`. */
  function RecipeFromReply(text: Option<string>, parsed: Option<RecipeData>): (r: Result<RecipeData, GenerationFailure>)
    ensures r.Success? <==> text.Some? && text.value != "" && parsed.Some?
    ensures r.Success? ==> r.value == parsed.value
    ensures text.None? || text.value == "" ==> r == Failure(NoText)
  {
    if text.None? || text.value == "" then Failure(NoText)
    else if parsed.None? then Failure(Unparseable)
    else Success(parsed.value)
  }

  /** `response.candidates?.[0]?.content?.parts || []`. */
  function ReplyParts(candidates: seq<Candidate>): (r: seq<ResponsePart>)
    ensures |candidates| == 0 ==> r == []
    ensures 0 < |candidates| && candidates[0].parts.Some? ==> r == candidates[0].parts.value
    ensures 0 < |candidates| && candidates[0].parts.None? ==> r == []
  {
    if 0 < |candidates| && candidates[0].parts.Some? then candidates[0].parts.value else []
  }

  /** The displayable URL for base64 image data. */
  function ImageUrl(data: string): (r: string)
    ensures ImageUrlPrefix <= r && r[|ImageUrlPrefix|..] == data
  {
    ImageUrlPrefix + data
  }

  /** Reading an image URL back as a data URL recovers the base64 payload. */
  lemma ImageUrlRoundTrip(data: string)
    requires ',' !in data
    ensures SecondField(ImageUrl(data)) == Some(data)
  {
    assert ImageUrl(data) == "data:image/png;base64" + "," + data;
    SecondFieldOf("data:image/png;base64", data, "");
  }

  /** No part of the reply carries image data. */
  predicate NoImage(parts: seq<ResponsePart>)
  {
    forall i :: 0 <= i < |parts| ==> parts[i].inlineData.None?
  }

  /** `url` is the image URL of the first part that carries inline data. */
  predicate IsFirstImage(parts: seq<ResponsePart>, url: string)
  {
    exists i :: 0 <= i < |parts| && parts[i].inlineData.Some? && NoImage(parts[..i])
      && url == ImageUrl(parts[i].inlineData.value.data)
  }

  /** The loop shared by `generateHeroImage` and `generateStepIllustration`:
      the URL of the first part with inline data, or `failure` when none has it. */
  method FirstImage(parts: seq<ResponsePart>, failure: string) returns (r: Result<string, string>)
    ensures r.Failure? <==> NoImage(parts)
    ensures r.Failure? ==> r.error == failure
    ensures r.Success? ==> IsFirstImage(parts, r.value)
  {
    var k := 0;
    while k < |parts|
      invariant 0 <= k <= |parts|
      invariant NoImage(parts[..k])
    {
      if parts[k].inlineData.Some? {
        assert IsFirstImage(parts, ImageUrl(parts[k].inlineData.value.data));
        return Success(ImageUrl(parts[k].inlineData.value.data));
      }
      assert parts[..k + 1] == parts[..k] + [parts[k]];
      k := k + 1;
    }
    assert parts[..k] == parts;
    return Failure(failure);
  }

  /** The hero-photo request: a 16:9 photograph prompt naming the item. */
  function HeroRequest(itemName: string): (r: ImageRequest)
    ensures r.model == ImageModel && r.aspectRatio == "16:9"
    ensures Contains(r.prompt, itemName)
  {
    var pre := "A professional, appetizing, high-resolution food photograph of ";
    var post := ". Gourmet presentation, soft natural sunlight, shallow depth of field, minimalist aesthetic, clean tabletop background.";
    ContainsInfix(pre, itemName, post);
    ImageRequest(ImageModel, pre + itemName + post, "16:9")
  }

  /** A step-illustration request: a square watercolour prompt that starts with the step's prompt. */
  function StepRequest(prompt: string): (r: ImageRequest)
    ensures r.model == ImageModel && r.aspectRatio == "1:1"
    ensures prompt <= r.prompt
  {
    ImageRequest(ImageModel, prompt + ". Style: Hand-drawn watercolor, vector, ISOLATED ON PURE WHITE BACKGROUND, NO BACKGROUND elements, soft pastel colors.", "1:1")
  }

  /** `generateHeroImage` after the reply arrives. */
  method HeroImage(candidates: seq<Candidate>) returns (r: Result<string, string>)
    ensures r.Failure? <==> NoImage(ReplyParts(candidates))
    ensures r.Failure? ==> r.error == HeroFailure
    ensures r.Success? ==> ImageUrlPrefix <= r.value && IsFirstImage(ReplyParts(candidates), r.value)
  {
    r := FirstImage(ReplyParts(candidates), HeroFailure);
  }

  /** `generateStepIllustration` after the reply arrives. */
  method StepIllustration(candidates: seq<Candidate>) returns (r: Result<string, string>)
    ensures r.Failure? <==> NoImage(ReplyParts(candidates))
    ensures r.Failure? ==> r.error == StepFailure
    ensures r.Success? ==> ImageUrlPrefix <= r.value && IsFirstImage(ReplyParts(candidates), r.value)
  {
    r := FirstImage(ReplyParts(candidates), StepFailure);
  }
}

=== FILE: illustrations.dfy ===
/** The per-step illustration map of App.tsx: which steps get a fetch when a
    recipe becomes active, and the three updates a fetch makes to its own key
    (dispatch, success, failure). */
module Illustrations {
  import opened Wrappers
  import opened Types

  /** The error text a failed fetch leaves on its entry. */
  const RetryingText := "Retrying..."

  /** The url currently recorded for step `n` (`prev[n]?.url`). */
  function PriorUrl(m: IllustrationState, n: int): Option<string>
  {
    if n in m then m[n].url else None
  }

  /** Step `n` shows a picture: its url is present and not empty. */
  predicate HasImage(m: IllustrationState, n: int)
  {
    n in m && m[n].url.Some? && m[n].url.value != ""
  }

  /** Step `n` has a fetch in flight. */
  predicate InFlight(m: IllustrationState, n: int)
  {
    n in m && m[n].loading
  }

  /** The dispatch guard of the recipe effect: no picture and nothing in flight. */
  predicate NeedsFetch(m: IllustrationState, n: int)
  {
    !HasImage(m, n) && !InFlight(m, n)
  }

  /** Only key `n` may differ between `m` and `r`, and `r` has key `n`. */
  predicate OnlyKeyChanged(m: IllustrationState, r: IllustrationState, n: int)
  {
    && r.Keys == m.Keys + {n}
    && forall k :: k in m && k != n ==> r[k] == m[k]
  }

  /** Starting a fetch: the entry is loading with no error and keeps any url it had. */
  function Dispatch(m: IllustrationState, n: int): (r: IllustrationState)
    ensures OnlyKeyChanged(m, r, n)
    ensures r[n].loading && r[n].error.None? && r[n].url == PriorUrl(m, n)
  {
    m[n := Illustration(PriorUrl(m, n), true, None)]
  }

  /** A fetch that returned an image: the entry shows it, not loading, no error. */
  function Succeed(m: IllustrationState, n: int, url: string): (r: IllustrationState)
    ensures OnlyKeyChanged(m, r, n)
    ensures r[n] == Illustration(Some(url), false, None)
  {
    m[n := Illustration(Some(url), false, None)]
  }

  /** A fetch that failed: the entry stops loading, says it is retrying and keeps any url it had. */
  function Fail(m: IllustrationState, n: int): (r: IllustrationState)
    ensures OnlyKeyChanged(m, r, n)
    ensures !r[n].loading && r[n].error == Some(RetryingText) && r[n].url == PriorUrl(m, n)
  {
    m[n := Illustration(PriorUrl(m, n), false, Some(RetryingText))]
  }

  /** The outcome of one step fetch applied to the map. */
  function Complete(m: IllustrationState, n: int, outcome: Result<string, string>): (r: IllustrationState)
    ensures OnlyKeyChanged(m, r, n) && !r[n].loading
    ensures outcome.Success? <==> r[n].error.None?
    ensures outcome.Success? ==> r[n] == Illustration(Some(outcome.value), false, None)
    ensures outcome.Failure? ==> r[n].url == PriorUrl(m, n) && r[n].error == Some(RetryingText)
  {
    match outcome
    case Success(url) => Succeed(m, n, url)
    case Failure(_) => Fail(m, n)
  }

  /** A step whose fetch has started is not dispatched again, whatever it held before;
      and a finished fetch leaves a step that is no longer in flight. */
  lemma DispatchGuardsReentry(m: IllustrationState, n: int, outcome: Result<string, string>)
    ensures !NeedsFetch(Dispatch(m, n), n)
    ensures !InFlight(Complete(Dispatch(m, n), n, outcome), n)
    ensures outcome.Success? && outcome.value != "" ==> HasImage(Complete(Dispatch(m, n), n, outcome), n)
    ensures outcome.Failure? ==> Complete(Dispatch(m, n), n, outcome)[n].url == PriorUrl(m, n)
  {
  }

  /** The steps the recipe effect dispatches: those whose entry, in the map as
      it stood when the effect ran, has no picture and is not loading. */
  function FetchPlan(steps: seq<RecipeStep>, m: IllustrationState): (r: seq<RecipeStep>)
    ensures |r| <= |steps|
    ensures forall st :: st in r <==> st in steps && NeedsFetch(m, st.stepNumber)
  {
    if |steps| == 0 then []
    else if NeedsFetch(m, steps[0].stepNumber) then [steps[0]] + FetchPlan(steps[1..], m)
    else FetchPlan(steps[1..], m)
  }

  /** The step numbers of a list of steps. */
  function Numbers(steps: seq<RecipeStep>): set<int>
  {
    set st | st in steps :: st.stepNumber
  }

  /** Dispatching every planned step, in order. */
  function DispatchAll(m: IllustrationState, plan: seq<RecipeStep>): (r: IllustrationState)
    ensures r.Keys == m.Keys + Numbers(plan)
    ensures forall n :: n in Numbers(plan) ==> r[n].loading && r[n].error.None? && r[n].url == PriorUrl(m, n)
    ensures forall n :: n in m && n !in Numbers(plan) ==> r[n] == m[n]
    decreases |plan|
  {
    if |plan| == 0 then m
    else
      var r := DispatchAll(Dispatch(m, plan[0].stepNumber), plan[1..]);
      assert Numbers(plan) == {plan[0].stepNumber} + Numbers(plan[1..]) by {
        assert forall st :: st in plan <==> st == plan[0] || st in plan[1..];
      }
      r
  }

  /** No two steps share a number. */
  predicate DistinctNumbers(steps: seq<RecipeStep>)
  {
    forall i, j :: 0 <= i < j < |steps| ==> steps[i].stepNumber != steps[j].stepNumber
  }

  /** When the recipe's steps are numbered without repetition, the plan dispatches
      at most one fetch per step number. */
  lemma {:induction false} PlanHasOneFetchPerStep(steps: seq<RecipeStep>, m: IllustrationState)
    requires DistinctNumbers(steps)
    ensures DistinctNumbers(FetchPlan(steps, m))
    decreases |steps|
  {
    if |steps| > 0 {
      var rest := FetchPlan(steps[1..], m);
      assert DistinctNumbers(steps[1..]) by {
        forall i, j | 0 <= i < j < |steps[1..]|
          ensures steps[1..][i].stepNumber != steps[1..][j].stepNumber
        {
          assert steps[1..][i] == steps[i + 1] && steps[1..][j] == steps[j + 1];
        }
      }
      PlanHasOneFetchPerStep(steps[1..], m);
      if NeedsFetch(m, steps[0].stepNumber) {
        var r := [steps[0]] + rest;
        forall i, j | 0 <= i < j < |r| ensures r[i].stepNumber != r[j].stepNumber {
          if i == 0 {
            assert r[j] == rest[j - 1] && r[j] in steps[1..];
            var k :| 0 <= k < |steps[1..]| && steps[1..][k] == r[j];
            assert steps[k + 1] == r[j];
          } else {
            assert r[i] == rest[i - 1] && r[j] == rest[j - 1];
          }
        }
      }
    }
  }

  /** When no step needs a fetch the plan is empty. */
  lemma {:induction false} PlanEmptyWhenNothingNeeded(steps: seq<RecipeStep>, m: IllustrationState)
    requires forall st :: st in steps ==> !NeedsFetch(m, st.stepNumber)
    ensures FetchPlan(steps, m) == []
    decreases |steps|
  {
    if |steps| > 0 {
      assert steps[0] in steps;
      assert forall st :: st in steps[1..] ==> st in steps;
      PlanEmptyWhenNothingNeeded(steps[1..], m);
    }
  }

  /** Running the effect again right after its dispatches start dispatches nothing:
      every step is either showing a picture or in flight. */
  lemma NoDuplicateDispatch(steps: seq<RecipeStep>, m: IllustrationState)
    ensures FetchPlan(steps, DispatchAll(m, FetchPlan(steps, m))) == []
  {
    var plan := FetchPlan(steps, m);
    var m' := DispatchAll(m, plan);
    forall st | st in steps ensures !NeedsFetch(m', st.stepNumber) {
      var n := st.stepNumber;
      if n in Numbers(plan) {
        assert InFlight(m', n);
      } else {
        assert st !in plan;
        assert !NeedsFetch(m, n);
        if HasImage(m, n) {
          assert HasImage(m', n);
        } else {
          assert InFlight(m', n);
        }
      }
    }
    PlanEmptyWhenNothingNeeded(steps, m');
  }
}

=== FILE: profile.dfy ===
/** Profile updates of App.tsx: the per-category proficiency change (applied
    locally before the backend write) and the diary post (applied locally only
    after the backend returns the new row). */
module Profile {
  import opened Wrappers
  import opened Text
  import opened Types

  /** Fallback subject of a blank caption when no recipe is active. */
  const FallbackSubject := "Sweet"

  /** The profile before any backend data arrives. */
  function DefaultProfile(): (p: UserProfile)
    ensures p.avatar.None? && p.diaries == []
    ensures forall c :: p.levels.Get(c) == Beginner
  {
    UserProfile(None, ProficiencyLevels(Beginner, Beginner, Beginner), [])
  }

  /** `{ ...levels, [category]: level }`. */
  function WithLevel(levels: ProficiencyLevels, c: Category, l: ProficiencyLevel): (r: ProficiencyLevels)
    ensures r.Get(c) == l
    ensures forall c' :: c' != c ==> r.Get(c') == levels.Get(c')
  {
    match c
    case Dessert => levels.(dessert := l)
    case Beverage => levels.(beverage := l)
    case Coffee => levels.(coffee := l)
  }

  /** The local profile after a proficiency change, and the levels pushed to the backend. */
  datatype ProfileUpdate = ProfileUpdate(profile: UserProfile, sync: Option<ProficiencyLevels>)

  /** `updateProficiency`: nothing without a signed-in user; otherwise only the
      chosen category changes, and the full new level record is what the
      backend write carries, so local and pushed levels agree. */
  function UpdateProficiency(p: UserProfile, userId: Option<string>, c: Category, l: ProficiencyLevel): (r: ProfileUpdate)
    ensures userId.None? ==> r == ProfileUpdate(p, None)
    ensures userId.Some? ==>
      && r.profile.levels.Get(c) == l
      && (forall c' :: c' != c ==> r.profile.levels.Get(c') == p.levels.Get(c'))
      && r.profile.avatar == p.avatar && r.profile.diaries == p.diaries
      && r.sync == Some(r.profile.levels)
  {
    if userId.None? then ProfileUpdate(p, None)
    else
      var levels := WithLevel(p.levels, c, l);
      ProfileUpdate(p.(levels := levels), Some(levels))
  }

  /** Choosing the same level twice is the same as choosing it once, and changes
      to two different categories do not interfere. */
  lemma UpdateProficiencyLaws(p: UserProfile, userId: string, c: Category, d: Category, l: ProficiencyLevel, m: ProficiencyLevel)
    ensures
      var once := UpdateProficiency(p, Some(userId), c, l).profile;
      UpdateProficiency(once, Some(userId), c, l).profile == once
    ensures c != d ==>
      UpdateProficiency(UpdateProficiency(p, Some(userId), c, l).profile, Some(userId), d, m).profile ==
      UpdateProficiency(UpdateProficiency(p, Some(userId), d, m).profile, Some(userId), c, l).profile
  {
    var once := UpdateProficiency(p, Some(userId), c, l).profile;
    LevelsExtensional(UpdateProficiency(once, Some(userId), c, l).profile.levels, once.levels);
    if c != d {
      var a := UpdateProficiency(UpdateProficiency(p, Some(userId), c, l).profile, Some(userId), d, m).profile;
      var b := UpdateProficiency(UpdateProficiency(p, Some(userId), d, m).profile, Some(userId), c, l).profile;
      LevelsExtensional(a.levels, b.levels);
    }
  }

  /** Two level records that agree on every category are equal. */
  lemma LevelsExtensional(a: ProficiencyLevels, b: ProficiencyLevels)
    requires forall c :: a.Get(c) == b.Get(c)
    ensures a == b
  {
    assert a.Get(Dessert) == b.Get(Dessert);
    assert a.Get(Beverage) == b.Get(Beverage);
    assert a.Get(Coffee) == b.Get(Coffee);
  }

  /** The diary caption: the typed caption when there is one, otherwise
      "My <item> creation!" naming the active recipe, or "Sweet" when no recipe
      with a name is active. */
  function Caption(typed: string, recipe: Option<RecipeData>): (r: string)
    ensures typed != "" ==> r == typed
    ensures typed == "" ==> "My " <= r
    ensures typed == "" && recipe.Some? && recipe.value.itemName != "" ==>
      r == "My " + recipe.value.itemName + " creation!" && Contains(r, recipe.value.itemName)
    ensures typed == "" && !(recipe.Some? && recipe.value.itemName != "") ==> r == "My Sweet creation!"
  {
    if typed != "" then typed
    else
      var subject := if recipe.Some? && recipe.value.itemName != "" then recipe.value.itemName else FallbackSubject;
      ContainsSuffix("My ", subject);
      ContainsAppend("My " + subject, subject, " creation!");
      "My " + subject + " creation!"
  }

  /** The post modal: open flag, chosen photo, typed caption, spinner. */
  datatype PostFlow = PostFlow(open: bool, image: Option<string>, caption: string, posting: bool)

  /** The row sent to the backend. */
  datatype NewDiaryRow = NewDiaryRow(userId: string, photo: string, text: string, date: string)

  /** The backend's answer to the insert: the inserted rows, an error, or an exception. */
  datatype PostReply = Inserted(rows: seq<DiaryEntry>) | InsertFailed | PostThrew

  /** The modal after `finalizePost`'s synchronous part, and the row it inserts, if any. */
  datatype PostStart = PostStart(flow: PostFlow, row: Option<NewDiaryRow>)

  /** The synchronous part of `finalizePost`: nothing without a photo or a user;
      otherwise the spinner starts and the row carries the compressed photo and
      the caption (defaulted when blank). `compressed` and `date` are the
      results of image compression and of the clock. */
  function BeginPost(flow: PostFlow, userId: Option<string>, recipe: Option<RecipeData>, compressed: string, date: string): (r: PostStart)
    ensures (flow.image.None? || flow.image.value == "" || userId.None?) ==> r == PostStart(flow, None)
    ensures flow.image.Some? && flow.image.value != "" && userId.Some? ==>
      && r.flow == flow.(posting := true)
      && r.row == Some(NewDiaryRow(userId.value, compressed, Caption(flow.caption, recipe), date))
  {
    if flow.image.None? || flow.image.value == "" || userId.None? then PostStart(flow, None)
    else PostStart(flow.(posting := true), Some(NewDiaryRow(userId.value, compressed, Caption(flow.caption, recipe), date)))
  }

  /** The diary and modal after the backend's answer: the spinner stops; when a
      row comes back it goes in front of the diary (newest first) and the modal
      closes and clears; otherwise the diary and the modal's contents stay. */
  function FinishPost(p: UserProfile, flow: PostFlow, reply: PostReply): (r: (UserProfile, PostFlow))
    ensures !r.1.posting
    ensures r.0.avatar == p.avatar && r.0.levels == p.levels
    ensures reply.Inserted? && 0 < |reply.rows| ==>
      && |r.0.diaries| == |p.diaries| + 1
      && r.0.diaries[0] == reply.rows[0] && r.0.diaries[1..] == p.diaries
      && r.1 == PostFlow(false, None, "", false)
    ensures !(reply.Inserted? && 0 < |reply.rows|) ==> r.0 == p && r.1 == flow.(posting := false)
  {
    if reply.Inserted? && 0 < |reply.rows| then
      (p.(diaries := [reply.rows[0]] + p.diaries), PostFlow(false, None, "", false))
    else
      (p, flow.(posting := false))
  }

  /** The posted text is never blank: it is the typed caption when one was typed
      and the generated one otherwise. */
  lemma PostedTextNeverBlank(flow: PostFlow, userId: string, recipe: Option<RecipeData>, compressed: string, date: string)
    requires flow.image.Some? && flow.image.value != ""
    ensures
      var row := BeginPost(flow, Some(userId), recipe, compressed, date).row;
      && row.Some? && row.value.text != ""
      && (flow.caption != "" ==> row.value.text == flow.caption)
  {
  }

  /** The Share button: disabled while a post is in flight; otherwise it runs
      `finalizePost`. */
  function PressShare(flow: PostFlow, userId: Option<string>, recipe: Option<RecipeData>, compressed: string, date: string): (r: PostStart)
    ensures flow.posting ==> r == PostStart(flow, None)
    ensures !flow.posting ==> r == BeginPost(flow, userId, recipe, compressed, date)
  {
    if flow.posting then PostStart(flow, None) else BeginPost(flow, userId, recipe, compressed, date)
  }

  /** A second tap on Share while the first post is in flight sends nothing. */
  lemma ShareSendsOneRowAtATime(flow: PostFlow, userId: Option<string>, recipe: Option<RecipeData>,
                                compressed: string, date1: string, date2: string)
    requires PressShare(flow, userId, recipe, compressed, date1).row.Some?
    ensures
      var first := PressShare(flow, userId, recipe, compressed, date1);
      && first.flow.posting
      && PressShare(first.flow, userId, recipe, compressed, date2) == PostStart(first.flow, None)
  {
  }

  /** A failed insert leaves the diary alone and the Share button enabled, and
      sharing again sends the same photo and caption; only the date is the
      clock's new reading. */
  lemma PostRetryRepeatsPhotoAndCaption(p: UserProfile, flow: PostFlow, userId: Option<string>, recipe: Option<RecipeData>,
                                        compressed: string, date1: string, date2: string, reply: PostReply)
    requires !flow.posting
    requires !(reply.Inserted? && 0 < |reply.rows|)
    ensures
      var first := PressShare(flow, userId, recipe, compressed, date1);
      var after := FinishPost(p, first.flow, reply);
      var retry := PressShare(after.1, userId, recipe, compressed, date2);
      && after.0 == p
      && retry.row.Some? == first.row.Some?
      && (first.row.Some? ==> retry.row.value == first.row.value.(date := date2))
  {
  }
}

=== FILE: saved.dfy ===
/** The saved-recipe toggle of App.tsx. Membership is decided by `itemName`
    alone, and the local list changes only after the backend acknowledges the
    delete or the insert. */
module SavedRecipes {
  import opened Wrappers
  import opened Types

  /** The backend's answer to a delete or insert: acknowledged, an error value, or an exception. */
  datatype Ack = Acknowledged | Rejected | Threw

  /** The remote write a toggle makes. */
  datatype SaveCall = DeleteByName(userId: string, itemName: string) | Insert(userId: string, recipe: RecipeData)

  /** Some saved recipe carries this name. */
  predicate HasName(saved: seq<RecipeData>, name: string)
  {
    exists i :: 0 <= i < |saved| && saved[i].itemName == name
  }

  /** The names of the saved recipes. */
  function Names(saved: seq<RecipeData>): set<string>
  {
    set r | r in saved :: r.itemName
  }

  /** Every saved recipe except those carrying `name`, in their original order. */
  function RemoveByName(saved: seq<RecipeData>, name: string): (r: seq<RecipeData>)
    ensures forall x :: x in r <==> x in saved && x.itemName != name
    ensures forall x :: multiset(r)[x] == if x.itemName == name then 0 else multiset(saved)[x]
    ensures |r| <= |saved|
  {
    if |saved| == 0 then []
    else
      assert saved == [saved[0]] + saved[1..];
      if saved[0].itemName == name then RemoveByName(saved[1..], name)
      else [saved[0]] + RemoveByName(saved[1..], name)
  }

  /** Filtering a concatenation filters each half and keeps their order. */
  lemma {:induction false} RemoveByNameConcat(a: seq<RecipeData>, b: seq<RecipeData>, name: string)
    ensures RemoveByName(a + b, name) == RemoveByName(a, name) + RemoveByName(b, name)
    decreases |a|
  {
    if |a| == 0 {
      assert a + b == b;
    } else {
      assert (a + b)[0] == a[0];
      assert (a + b)[1..] == a[1..] + b;
      RemoveByNameConcat(a[1..], b, name);
    }
  }

  /** The call a toggle makes: none without a recipe or a signed-in user; a
      delete by name when the name is already saved; an insert otherwise. */
  function ToggleCall(saved: seq<RecipeData>, recipe: Option<RecipeData>, userId: Option<string>): (r: Option<SaveCall>)
    ensures r.None? <==> recipe.None? || userId.None?
    ensures r.Some? && HasName(saved, recipe.value.itemName) ==> r.value == DeleteByName(userId.value, recipe.value.itemName)
    ensures r.Some? && !HasName(saved, recipe.value.itemName) ==> r.value == Insert(userId.value, recipe.value)
  {
    if recipe.None? || userId.None? then None
    else if HasName(saved, recipe.value.itemName) then Some(DeleteByName(userId.value, recipe.value.itemName))
    else Some(Insert(userId.value, recipe.value))
  }

  /** The saved list after the backend answered `call`: unchanged unless the
      answer is an acknowledgement; an acknowledged delete drops every recipe
      with the name, an acknowledged insert appends the recipe. */
  function ApplyAck(saved: seq<RecipeData>, call: SaveCall, ack: Ack): (r: seq<RecipeData>)
    ensures ack != Acknowledged ==> r == saved
    ensures ack == Acknowledged && call.DeleteByName? ==>
      r == RemoveByName(saved, call.itemName) && !HasName(r, call.itemName)
    ensures ack == Acknowledged && call.Insert? ==> r == saved + [call.recipe]
  {
    if ack != Acknowledged then saved
    else
      match call
      case DeleteByName(_, name) =>
        var r := RemoveByName(saved, name);
        assert forall i :: 0 <= i < |r| ==> r[i] in r;
        r
      case Insert(_, recipe) => saved + [recipe]
  }

  /** A toggle between its click and the backend's answer: the call made and the
      saved list as it stood at the click, which the handler's closure keeps. */
  datatype PendingToggle = PendingToggle(call: SaveCall, snapshot: seq<RecipeData>)

  /** The click: nothing without a recipe or a user; otherwise the call and a
      snapshot of the list. */
  function BeginToggle(saved: seq<RecipeData>, recipe: Option<RecipeData>, userId: Option<string>): (r: Option<PendingToggle>)
    ensures r.None? <==> recipe.None? || userId.None?
    ensures r.Some? ==> r.value.snapshot == saved && Some(r.value.call) == ToggleCall(saved, recipe, userId)
  {
    match ToggleCall(saved, recipe, userId)
    case None => None
    case Some(call) => Some(PendingToggle(call, saved))
  }

  /** The answer: without an acknowledgement the current list stays; with one,
      the list becomes the click-time snapshot with the write applied, whatever
      happened to the list in between. */
  function CompleteToggle(current: seq<RecipeData>, pending: PendingToggle, ack: Ack): (r: seq<RecipeData>)
    ensures ack != Acknowledged ==> r == current
    ensures ack == Acknowledged && pending.call.Insert? ==> r == pending.snapshot + [pending.call.recipe]
    ensures ack == Acknowledged && pending.call.DeleteByName? ==> r == RemoveByName(pending.snapshot, pending.call.itemName)
  {
    if ack != Acknowledged then current else ApplyAck(pending.snapshot, pending.call, ack)
  }

  /** Two taps on an unsaved recipe before the first answer: both send an
      insert, yet the list ends up holding the recipe once, because each answer
      rewrites the click-time list. */
  lemma DoubleTapInsertsTwiceKeepsOneCopy(saved: seq<RecipeData>, recipe: RecipeData, userId: string)
    requires !HasName(saved, recipe.itemName)
    ensures
      var first := BeginToggle(saved, Some(recipe), Some(userId));
      var second := BeginToggle(saved, Some(recipe), Some(userId));
      && first.Some? && second.Some?
      && first.value.call == Insert(userId, recipe) && second.value.call == Insert(userId, recipe)
      && CompleteToggle(CompleteToggle(saved, first.value, Acknowledged), second.value, Acknowledged) == saved + [recipe]
  {
  }

  /** `toggleSaveRecipe` with no other event between click and answer. After an
      acknowledged toggle the recipe's name is saved exactly when it was not
      before; without a recipe, a user or an acknowledgement nothing changes. */
  function Toggle(saved: seq<RecipeData>, recipe: Option<RecipeData>, userId: Option<string>, ack: Ack): (r: seq<RecipeData>)
    ensures recipe.None? || userId.None? || ack != Acknowledged ==> r == saved
    ensures recipe.Some? && userId.Some? && ack == Acknowledged ==>
      (HasName(r, recipe.value.itemName) <==> !HasName(saved, recipe.value.itemName))
    ensures recipe.Some? && userId.Some? && ack == Acknowledged ==>
      && (HasName(saved, recipe.value.itemName) ==> r == RemoveByName(saved, recipe.value.itemName))
      && (!HasName(saved, recipe.value.itemName) ==> r == saved + [recipe.value])
  {
    match BeginToggle(saved, recipe, userId)
    case None => saved
    case Some(p) =>
      if ack == Acknowledged && p.call.Insert? then
        assert (saved + [p.call.recipe])[|saved|] == p.call.recipe;
        CompleteToggle(saved, p, ack)
      else
        CompleteToggle(saved, p, ack)
  }

  /** Removing a name nobody carries changes nothing. */
  lemma {:induction false} RemoveAbsentName(saved: seq<RecipeData>, name: string)
    requires !HasName(saved, name)
    ensures RemoveByName(saved, name) == saved
    decreases |saved|
  {
    if |saved| > 0 {
      assert !HasName(saved[1..], name) by {
        forall i | 0 <= i < |saved[1..]| ensures saved[1..][i].itemName != name {
          assert saved[1..][i] == saved[i + 1];
        }
      }
      RemoveAbsentName(saved[1..], name);
      assert saved == [saved[0]] + saved[1..];
    }
  }

  /** Toggling a recipe that is not saved, twice, with both writes acknowledged,
      gives back exactly the original list. */
  lemma {:induction false} ToggleTwiceRestoresList(saved: seq<RecipeData>, recipe: RecipeData, userId: string)
    requires !HasName(saved, recipe.itemName)
    ensures Toggle(Toggle(saved, Some(recipe), Some(userId), Acknowledged), Some(recipe), Some(userId), Acknowledged) == saved
  {
    var once := saved + [recipe];
    assert once[|saved|] == recipe;
    RemoveAbsentName(saved, recipe.itemName);
    RemoveAppended(saved, recipe);
  }

  /** Removing a name from a list with that name appended at the end only removes what
      removing it from the list itself removes. */
  lemma {:induction false} RemoveAppended(saved: seq<RecipeData>, recipe: RecipeData)
    ensures RemoveByName(saved + [recipe], recipe.itemName) == RemoveByName(saved, recipe.itemName)
    decreases |saved|
  {
    if |saved| == 0 {
      assert saved + [recipe] == [recipe];
    } else {
      assert (saved + [recipe])[1..] == saved[1..] + [recipe];
      RemoveAppended(saved[1..], recipe);
    }
  }

  /** Two acknowledged toggles of the same recipe restore the set of saved names. */
  lemma ToggleTwiceRestoresNames(saved: seq<RecipeData>, recipe: RecipeData, userId: string)
    ensures Names(Toggle(Toggle(saved, Some(recipe), Some(userId), Acknowledged), Some(recipe), Some(userId), Acknowledged)) == Names(saved)
  {
    var name := recipe.itemName;
    if HasName(saved, name) {
      var once := Toggle(saved, Some(recipe), Some(userId), Acknowledged);
      assert once == RemoveByName(saved, name);
      assert !HasName(once, name);
      assert Toggle(once, Some(recipe), Some(userId), Acknowledged) == once + [recipe];
      ReaddedNameRestoresNames(saved, recipe);
    } else {
      ToggleTwiceRestoresList(saved, recipe, userId);
    }
  }

  /** Dropping a saved name and appending a recipe with that name gives back the same names. */
  lemma ReaddedNameRestoresNames(saved: seq<RecipeData>, recipe: RecipeData)
    requires HasName(saved, recipe.itemName)
    ensures Names(RemoveByName(saved, recipe.itemName) + [recipe]) == Names(saved)
  {
    var name := recipe.itemName;
    var once := RemoveByName(saved, name);
    var twice := once + [recipe];
    var k :| 0 <= k < |saved| && saved[k].itemName == name;
    assert saved[k] in saved;
    forall x | x in Names(twice) ensures x in Names(saved) {
      var y :| y in twice && y.itemName == x;
      if y !in once { assert y == recipe; }
    }
    forall x | x in Names(saved) ensures x in Names(twice) {
      var y :| y in saved && y.itemName == x;
      if x == name { assert twice[|once|] == recipe; } else { assert y in once; }
    }
  }
}

=== FILE: text.dfy ===
/** The string operations the application relies on: ASCII lower-casing,
    substring search (`String.prototype.includes`), the second field of a
    comma split (`split(',')[1]`) and decimal rendering of integers (template
    literal interpolation of a number). */
module Text {
  import opened Wrappers

  /** Lower-cases one ASCII letter and leaves every other character alone. */
  function LowerChar(c: char): char
  {
    if 'A' <= c <= 'Z' then (c as int + 32) as char else c
  }

  /** `s.toLowerCase()` restricted to ASCII letters. */
  function Lower(s: string): (r: string)
    ensures |r| == |s|
    ensures forall i :: 0 <= i < |s| ==> r[i] == LowerChar(s[i])
  {
    seq(|s|, i requires 0 <= i < |s| => LowerChar(s[i]))
  }

  /** Lower-casing leaves no ASCII upper-case letter behind and is idempotent. */
  lemma LowerIsLowerCase(s: string)
    ensures forall i :: 0 <= i < |Lower(s)| ==> !('A' <= Lower(s)[i] <= 'Z')
    ensures Lower(Lower(s)) == Lower(s)
  {
  }

  /** `sub` occurs in `s` starting at index `i`. */
  predicate OccursAt(s: string, sub: string, i: nat)
  {
    i + |sub| <= |s| && s[i..i + |sub|] == sub
  }

  /** `s.includes(sub)`: `sub` is a prefix of some suffix of `s`. */
  predicate Contains(s: string, sub: string)
    decreases |s|
  {
    sub <= s || (0 < |s| && Contains(s[1..], sub))
  }

  /** An occurrence at any position is found by the recursive search. */
  lemma {:induction false} OccursImpliesContains(s: string, sub: string, i: nat)
    requires OccursAt(s, sub, i)
    ensures Contains(s, sub)
    decreases i
  {
    if i == 0 {
      assert sub == s[..|sub|];
    } else {
      assert s[1..][i - 1..i - 1 + |sub|] == s[i..i + |sub|];
      OccursImpliesContains(s[1..], sub, i - 1);
    }
  }

  /** The recursive search agrees with the positional definition of an occurrence. */
  lemma {:induction false} ContainsIffOccurs(s: string, sub: string)
    ensures Contains(s, sub) <==> exists i: nat :: OccursAt(s, sub, i)
    decreases |s|
  {
    forall i: nat | OccursAt(s, sub, i)
      ensures Contains(s, sub)
    {
      OccursImpliesContains(s, sub, i);
    }
    if sub <= s {
      assert OccursAt(s, sub, 0);
    } else if Contains(s, sub) {
      ContainsIffOccurs(s[1..], sub);
      var j: nat :| OccursAt(s[1..], sub, j);
      assert s[j + 1..j + 1 + |sub|] == s[1..][j..j + |sub|];
      assert OccursAt(s, sub, j + 1);
    }
  }

  /** A string contains every one of its infixes. */
  lemma ContainsInfix(a: string, b: string, c: string)
    ensures Contains(a + b + c, b)
  {
    var s := a + b + c;
    assert s[|a|..|a| + |b|] == b;
    assert OccursAt(s, b, |a|);
    ContainsIffOccurs(s, b);
  }

  /** Appending text keeps every occurrence. */
  lemma ContainsAppend(s: string, sub: string, y: string)
    requires Contains(s, sub)
    ensures Contains(s + y, sub)
  {
    ContainsIffOccurs(s, sub);
    var i: nat :| OccursAt(s, sub, i);
    assert (s + y)[i..i + |sub|] == s[i..i + |sub|];
    assert OccursAt(s + y, sub, i);
    ContainsIffOccurs(s + y, sub);
  }

  /** A string contains its suffix. */
  lemma ContainsSuffix(a: string, b: string)
    ensures Contains(a + b, b)
  {
    assert (a + b)[|a|..|a| + |b|] == b;
    assert OccursAt(a + b, b, |a|);
    ContainsIffOccurs(a + b, b);
  }

  /** Position of the first occurrence of `c` in `s`, like `indexOf` with -1 as `None`. */
  function IndexOf(s: string, c: char): (r: Option<nat>)
    ensures r.Some? ==> r.value < |s| && s[r.value] == c && c !in s[..r.value]
    ensures r.None? <==> c !in s
  {
    if |s| == 0 then None
    else if s[0] == c then Some(0)
    else
      match IndexOf(s[1..], c)
      case None => None
      case Some(k) =>
        assert s[..k + 1] == [s[0]] + s[1..][..k];
        Some(k + 1)
  }

  /** `s.split(',')[1]`: the text between the first comma and the next comma
      (or the end), and `undefined` (`None`) when `s` holds no comma. */
  function SecondField(s: string): (r: Option<string>)
    ensures r.None? <==> ',' !in s
    ensures r.Some? ==> ',' !in r.value
    ensures r.Some? ==>
      var i := IndexOf(s, ',').value;
      && r.value <= s[i + 1..]
      && (i + 1 + |r.value| == |s| || s[i + 1 + |r.value|] == ',')
  {
    match IndexOf(s, ',')
    case None => None
    case Some(i) =>
      var rest := s[i + 1..];
      match IndexOf(rest, ',')
      case None => Some(rest)
      case Some(j) => Some(rest[..j])
  }

  /** Splitting `head,field` or `head,field,tail` on commas yields `field` as the
      second piece, provided neither `head` nor `field` holds a comma. */
  lemma SecondFieldOf(head: string, field: string, tail: string)
    requires ',' !in head && ',' !in field
    ensures SecondField(head + "," + field) == Some(field)
    ensures SecondField(head + "," + field + "," + tail) == Some(field)
  {
    var s1 := head + "," + field;
    assert s1[|head|] == ',' && s1[..|head|] == head;
    assert IndexOf(s1, ',') == Some(|head|);
    assert s1[|head| + 1..] == field;
    var s2 := head + "," + field + "," + tail;
    assert s2[|head|] == ',' && s2[..|head|] == head;
    assert IndexOf(s2, ',') == Some(|head|);
    var rest := s2[|head| + 1..];
    assert rest == field + "," + tail;
    assert rest[|field|] == ',' && rest[..|field|] == field;
    assert IndexOf(rest, ',') == Some(|field|);
  }

  /** The character for a decimal digit. */
  function DigitChar(d: nat): (c: char)
    requires d < 10
    ensures '0' <= c <= '9' && c as int - '0' as int == d
  {
    (d + '0' as int) as char
  }

  /** Every character of `s` is a decimal digit. */
  predicate AllDigits(s: string)
  {
    forall i :: 0 <= i < |s| ==> '0' <= s[i] <= '9'
  }

  /** The number a string of decimal digits denotes. */
  function DecimalValue(s: string): nat
    requires AllDigits(s)
  {
    if |s| == 0 then 0
    else DecimalValue(s[..|s| - 1]) * 10 + (s[|s| - 1] as int - '0' as int)
  }

  /** The decimal rendering of a natural number, without leading zeros. */
  function NatToDecimal(n: nat): (r: string)
    ensures 0 < |r| && AllDigits(r)
    ensures |r| > 1 ==> r[0] != '0'
  {
    if n < 10 then [DigitChar(n)]
    else NatToDecimal(n / 10) + [DigitChar(n % 10)]
  }

  /** Reading back a rendered number gives the number. */
  lemma {:induction false} DecimalRoundTrip(n: nat)
    ensures DecimalValue(NatToDecimal(n)) == n
  {
    var r := NatToDecimal(n);
    if n >= 10 {
      DecimalRoundTrip(n / 10);
      assert r[..|r| - 1] == NatToDecimal(n / 10);
    }
  }

  /** `${n}` for an integer `n`: the digits of its magnitude without leading
      zeros, after a minus sign when it is negative. */
  function IntToDecimal(n: int): (r: string)
    ensures n >= 0 ==> 0 < |r| && AllDigits(r) && DecimalValue(r) == n && (|r| > 1 ==> r[0] != '0')
    ensures n < 0 ==> 1 < |r| && r[0] == '-' && AllDigits(r[1..]) && DecimalValue(r[1..]) == -n && (|r| > 2 ==> r[1] != '0')
    ensures forall i :: 0 <= i < |r| ==> r[i] == '-' || '0' <= r[i] <= '9'
  {
    if n < 0 then
      DecimalRoundTrip(-n);
      "-" + NatToDecimal(-n)
    else
      DecimalRoundTrip(n);
      NatToDecimal(n)
  }

  /** Different integers render differently, so the rendering can be read back. */
  lemma IntToDecimalInjective(a: int, b: int)
    requires IntToDecimal(a) == IntToDecimal(b)
    ensures a == b
  {
    var r := IntToDecimal(a);
    if a >= 0 && b >= 0 {
      assert DecimalValue(r) == a && DecimalValue(r) == b;
    } else if a < 0 && b < 0 {
      assert DecimalValue(r[1..]) == -a && DecimalValue(r[1..]) == -b;
    }
  }

  /** Two space-free words that both follow `lead` in `r` and are both followed
      by `tail`, which starts with a space, are the same word. */
  lemma NumeralBeforeSpace(r: string, lead: string, da: string, db: string, tail: string)
    requires 0 < |tail| && tail[0] == ' '
    requires forall i :: 0 <= i < |da| ==> da[i] != ' '
    requires forall i :: 0 <= i < |db| ==> db[i] != ' '
    requires lead + da + tail <= r && lead + db + tail <= r
    ensures da == db
  {
    var off := |lead|;
    var ha, hb := lead + da + tail, lead + db + tail;
    assert r[off + |da|] == ha[off + |da|] == ' ';
    assert r[off + |db|] == hb[off + |db|] == ' ';
    assert forall j :: off <= j < off + |da| ==> r[j] == ha[j] == da[j - off];
    assert forall j :: off <= j < off + |db| ==> r[j] == hb[j] == db[j - off];
    assert |da| == |db|;
    assert forall i :: 0 <= i < |da| ==> da[i] == r[off + i] == db[i];
  }
}

=== FILE: types.dfy ===
/** The records the application exchanges with the recipe service and the
    persistence backend (types.ts), plus the few enumerations App.tsx defines. */
module Types {
  import opened Wrappers

  /** One numbered preparation step; `stepNumber` joins a step to its illustration. */
  datatype RecipeStep = RecipeStep(stepNumber: int, description: string, imagePrompt: string)

  /** A generated recipe. `itemName` is also the key for saved-recipe membership. */
  datatype RecipeData = RecipeData(
    itemName: string,
    description: string,
    prepTime: string,
    servings: string,
    calories: string,
    ingredients: seq<string>,
    tools: seq<string>,
    steps: seq<RecipeStep>)

  /** The per-step illustration entry (one value of `IllustrationState`). */
  datatype Illustration = Illustration(url: Option<string>, loading: bool, error: Option<string>)

  /** `IllustrationState`: a sparse map from step number to its illustration. */
  type IllustrationState = map<int, Illustration>

  datatype ProficiencyLevel = Beginner | Intermediate | Professional

  /** The three food categories; they key both the proficiency record and the home-screen tabs. */
  datatype Category = Dessert | Beverage | Coffee

  /** Proficiency per category. */
  datatype ProficiencyLevels = ProficiencyLevels(
    dessert: ProficiencyLevel,
    beverage: ProficiencyLevel,
    coffee: ProficiencyLevel)
  {
    /** `levels[category]`. */
    function Get(c: Category): ProficiencyLevel
    {
      match c
      case Dessert => dessert
      case Beverage => beverage
      case Coffee => coffee
    }
  }

  /** A diary row as the backend returns it. */
  datatype DiaryEntry = DiaryEntry(id: string, photo: string, text: string, date: string)

  datatype UserProfile = UserProfile(avatar: Option<string>, levels: ProficiencyLevels, diaries: seq<DiaryEntry>)

  /** A picked file: its MIME type and the data URL a `FileReader` produces for it. */
  datatype File = File(mimeType: string, dataUrl: string)

  /** The display name of a proficiency level, as it appears in prompts. */
  function LevelName(p: ProficiencyLevel): string
  {
    match p
    case Beginner => "Beginner"
    case Intermediate => "Intermediate"
    case Professional => "Professional"
  }
}

=== FILE: wrappers.dfy ===
/** Option and Result values, used wherever the application sees a JavaScript
    `null`/`undefined` or a remote call that can fail. */
module Wrappers {

  /** A value that may be absent (`null` or `undefined` in the application). */
  datatype Option<+T> = None | Some(value: T)

  /** The outcome of an operation that either produces a value or fails with a reason. */
  datatype Result<+T, +E> = Success(value: T) | Failure(error: E)
}
